=== FILE: README.md ===
# BabyClockLearn clock core in Dafny

BabyClockLearn is a web page that teaches children to read a clock in
Korean. It has three parts. A draggable analog clock face lets the child
set a time by pulling a hand. A digital display shows the time as
"HH:MM:SS" or "오전/오후 H:MM:SS". A spoken form reads the time aloud
with the page's own formatter, for example "오후 삼 시 이십오 분 영 초";
the utility module's `formatTimeToKorean`, which no page calls, would say
the hour with a native-Korean word instead: "오후 세 시 이십오 분 영 초".

This project models the logic behind those parts and proves properties
of it:

- **Korean numerals.** `KoreanNumerals` covers the Sino-Korean numeral
  for minutes and seconds (`convertNumberToKorean`) and the native-Korean
  hour word (`convertHourToKoreanOrdinal`). Each comes with a reader that
  shows the word is faithful.
- **Time utilities.** `TimeUtils` covers `calculateTimeDifference`: its
  argument parsing, its hour/minute/second split and its description
  with the 남음/지남 suffix. It also covers `formatTimeToKorean`.
- **Home page.** `Home` covers the page's `formatTime`, its
  `formatTimeKorean` and its own copy of `convertNumberToKorean`. It also
  models which instant each widget is given (`manualTime || currentTime`)
  and the reset button.
- **Analog clock.** `AnalogClock` covers the hand angles, the choice of
  hand by distance from the centre, `updateTimeFromAngle`, the dial's
  marks and numerals, and the press, move, release and enter handlers.
  The handlers live in the `ClockCanvas` class, which holds the drag
  state and cursor.

Three helper modules stand in for the JavaScript built-ins the core
relies on:

- **`LocalTime`**: a `Date` as an integer count of milliseconds. It
  provides `getHours`/`getMinutes`/`getSeconds`/`getMilliseconds` and
  `setHours`/`setMinutes`/`setSeconds`, with JavaScript's carrying of
  out-of-range values into the next field.
- **`Decimal`**: `Number#toString` for non-negative integers and its
  inverse.
- **`Text`**: `split` on one character, `join`, `trim` and `padStart`.

The code draws a thin mark at every position `i` in 0..59 with
`i % 5 !== 0`, so 48 marks; the other 12 positions carry hour markers
(`AnalogClock.MinuteMarks`).

## Model

| member | source | states |
|---|---|---|
| `Decimal.DecimalString` | client/src/lib/time-utils.ts:97 | `toString()` of a non-negative integer is a non-empty digit string; it is one digit exactly below 10 and starts with '0' only for 0 |
| `Decimal.ParseDecimalString` | client/src/lib/time-utils.ts:97 | reading the numeral back gives the number: `toString` loses nothing |
| `Decimal.ParseLeadingZero` | client/src/pages/home.tsx:18 | the zero that `padStart(2, '0')` adds does not change the value the digits denote |
| `Text.Split` | client/src/lib/time-utils.ts:12 | `split(':')` yields at least one piece, and no piece contains the separator |
| `Text.SplitJoin` | client/src/lib/time-utils.ts:12 | splitting a join of separator-free pieces gives back exactly those pieces |
| `Text.JoinSplit` | client/src/lib/time-utils.ts:12 | joining the pieces of `split(sep)` with `sep` gives back the text, so the pieces are exactly the text between separators |
| `Text.TrimTrailingBlank` | client/src/lib/time-utils.ts:50 | `trim()` of text that ends in one blank, and has no other surrounding white space, removes just that blank |
| `Text.PadStart` | client/src/pages/home.tsx:18 | `padStart(width, fill)` has length max(len, width), ends with the original text and is fill before it |
| `LocalTime.Hours` | client/src/lib/time-utils.ts:72 | `getHours()` is an hour of the day, 0..23 |
| `LocalTime.Minutes` | client/src/lib/time-utils.ts:73 | `getMinutes()` is 0..59 |
| `LocalTime.Seconds` | client/src/lib/time-utils.ts:74 | `getSeconds()` is 0..59 |
| `LocalTime.FieldsOfMakeLocal` | client/src/lib/time-utils.ts:13-14 | an instant built from a day and in-range clock fields reads back those fields, its hour count and its minute count |
| `LocalTime.Decompose` | client/src/lib/time-utils.ts:13-14 | every instant is its day plus its clock fields |
| `LocalTime.SetHours` | client/src/components/analog-clock.tsx:164 | `setHours(h)` is the instant rebuilt from its day, hour h and its own minute, second and millisecond (ECMAScript's MakeDate of MakeDay and MakeTime), whatever h is |
| `LocalTime.SetHoursFull` | client/src/lib/time-utils.ts:14 | `setHours(h, m, s, ms)` is the instant rebuilt from its day and the four given fields |
| `LocalTime.SetMinutes` | client/src/components/analog-clock.tsx:167 | `setMinutes(m)` is the instant rebuilt from its day and fields with the minute replaced by m |
| `LocalTime.SetSeconds` | client/src/components/analog-clock.tsx:170 | `setSeconds(s)` is the instant rebuilt from its day and fields with the second replaced by s |
| `LocalTime.SetHoursFullFields` | client/src/lib/time-utils.ts:14 | `setHours(h, m, 0, 0)` with in-range values sets exactly those fields on the same day |
| `LocalTime.SetHoursInRange` | client/src/components/analog-clock.tsx:164 | `setHours(h)` for 0 <= h < 24 replaces the hour and keeps the day and finer fields |
| `LocalTime.SetHoursNegative` | client/src/components/analog-clock.tsx:164 | `setHours(h)` for -24 <= h < 0 moves to hour h + 24 of the previous day |
| `LocalTime.SetMinutesInRange` | client/src/components/analog-clock.tsx:167 | `setMinutes(m)` for 0 <= m < 60 replaces the minute only |
| `LocalTime.SetMinutesNegative` | client/src/components/analog-clock.tsx:167 | `setMinutes(m)` for -60 <= m < 0 gives minute m + 60 of the previous hour |
| `LocalTime.SetSecondsInRange` | client/src/components/analog-clock.tsx:170 | `setSeconds(s)` for 0 <= s < 60 replaces the second only |
| `LocalTime.SetSecondsNegative` | client/src/components/analog-clock.tsx:170 | `setSeconds(s)` for -60 <= s < 0 gives second s + 60 of the previous minute |
| `LocalTime.Hour12` | client/src/lib/time-utils.ts:77 | the 12-hour reading (the hour modulo 12, with 12 for 0) is 1..12 and congruent to the hour modulo 12 |
| `LocalTime.Hour12RoundTrip` | client/src/lib/time-utils.ts:76-77 | the 12-hour reading together with 오전/오후 determines the 24-hour hour |
| `KoreanNumerals.SinoKorean` | client/src/lib/time-utils.ts:86-98 | the numeral is non-empty and blank-free; below 60 it starts with a Hangul syllable, not a digit, so with `SinoRoundTrip` it is the Sino-Korean word; from 60 on it is the decimal numeral |
| `KoreanNumerals.OnesWordShape` | client/src/lib/time-utils.ts:87 | each entry 1..9 of the ones table is one syllable that names its own index |
| `KoreanNumerals.TensWordShape` | client/src/lib/time-utils.ts:88 | the tens table is 십 for ten and digit syllable + 십 for 20..50 |
| `KoreanNumerals.SinoRoundTrip` | client/src/lib/time-utils.ts:86-98 | reading the Sino-Korean numeral of any number gives that number back |
| `KoreanNumerals.SinoWordRoundTrip` | client/src/lib/time-utils.ts:90-95 | below 60 the numeral is a spoken word (not a digit string) that reads back as its number |
| `KoreanNumerals.SinoKoreanInjective` | client/src/lib/time-utils.ts:86-98 | no two numbers get the same numeral |
| `KoreanNumerals.HourOrdinal` | client/src/lib/time-utils.ts:100-128 | the table holds exactly 1..24; for those the result is the table's word (which `HourOrdinalIsNative` shows is the native counting word), and the decimal numeral otherwise (0 included) |
| `KoreanNumerals.HourOrdinalIsNative` | client/src/lib/time-utils.ts:101-126 | each of the 24 table entries is the native counting word built by the language's rule (unit, 열 + unit, 스무, 스물 + unit) |
| `KoreanNumerals.NativeUnitRoundTrip` | client/src/lib/time-utils.ts:102-110 | the native units 한..아홉 read back as 1..9 |
| `KoreanNumerals.DigitsAreNotNative` | client/src/lib/time-utils.ts:128 | a decimal fallback is never mistaken for a native word |
| `KoreanNumerals.HourOrdinalRoundTrip` | client/src/lib/time-utils.ts:100-128 | reading the hour word of any number gives that number back; the word is non-empty and blank-free |
| `KoreanNumerals.HourOrdinalInjective` | client/src/lib/time-utils.ts:100-128 | no two hours get the same word |
| `KoreanNumerals.NumeralExamples` | client/src/lib/time-utils.ts:86-128 | 0→영, 5→오, 10→십, 23→이십삼, 60→"60"; hours 1→한, 13→열세, 20→스무, 24→스물네, 0→"0", 25→"25" |
| `TimeUtils.ResolveArg` | client/src/lib/time-utils.ts:11-25 | a Date stands for itself; a "HH:MM" string stands for the instant rebuilt from today's day, hour HH, minute MM and zero seconds and milliseconds |
| `TimeUtils.ClockTextResolves` | client/src/lib/time-utils.ts:11-25 | a bare "HH:MM" within the day denotes today at HH:MM:00.000 |
| `TimeUtils.ClockTextExample` | client/src/lib/time-utils.ts:12 | "07:30" is read as 7 hours and 30 minutes |
| `TimeUtils.CalculateTimeDifference` | client/src/lib/time-utils.ts:27-37 | minutes and seconds are below 60, and hours·3600 + minutes·60 + seconds is the absolute difference in whole seconds |
| `TimeUtils.DescriptionParts` | client/src/lib/time-utils.ts:39-48 | the description has at least one component, each non-empty and blank-free |
| `TimeUtils.RawDescription` | client/src/lib/time-utils.ts:39-48 | the text before `trim` is the shown components joined by blanks plus one trailing blank |
| `TimeUtils.Description` | client/src/lib/time-utils.ts:39-57 | after `trim` and the suffix, the description is the shown components joined by single blanks, then 남음 or 지남 without a blank |
| `TimeUtils.DescriptionFormat` | client/src/lib/time-utils.ts:39-57 | the description of every result is its components joined by single blanks, then the suffix |
| `TimeUtils.JoinEnds` | client/src/lib/time-utils.ts:50 | a join of non-empty pieces starts and ends with non-blank characters, so `trim` keeps it whole |
| `TimeUtils.DescriptionPartsRule` | client/src/lib/time-utils.ts:40-48 | "N시간" appears iff hours > 0, "N분" iff minutes > 0, "N초" iff seconds > 0 or hours and minutes are both 0 |
| `TimeUtils.SymmetricMagnitude` | client/src/lib/time-utils.ts:27-32 | swapping the arguments gives the same hours, minutes and seconds |
| `TimeUtils.SuffixByArgumentKind` | client/src/lib/time-utils.ts:52-57 | the description ends in 남음 exactly when the target is a string, whichever instant is earlier |
| `TimeUtils.SameInstant` | client/src/lib/time-utils.ts:27-57 | two equal Dates are 0, 0, 0 apart, described as "0초지남" |
| `TimeUtils.ZeroDescription` | client/src/lib/time-utils.ts:46-57 | a zero difference to a Date is described as "0초지남" |
| `TimeUtils.PeriodPrefix` | client/src/lib/time-utils.ts:76 | the prefix is empty, "오전 " or "오후 " |
| `TimeUtils.SpokenTimeWords` | client/src/lib/time-utils.ts:83 | the spoken template splits on blanks into [period], hour, 시, minute, 분, second, 초 |
| `TimeUtils.ReadSpokenTimeCorrect` | client/src/lib/time-utils.ts:71-84 | the template filled with readable words, the minute and second as spoken Sino-Korean words rather than digits, reads back as the hour, minute and second it was built from |
| `TimeUtils.FormatTimeToKorean` | client/src/lib/time-utils.ts:71-84 | in 12-hour mode the phrase starts with "오전 " exactly before noon and with "오후 " exactly from noon on; in either mode the prefix is followed by the native word of the displayed hour (`hours % 12 || 12` in 12-hour mode, the raw hour in 24-hour mode); `FormatTimeToKoreanRoundTrip` shows the whole phrase names the time |
| `TimeUtils.FormatTimeToKoreanRoundTrip` | client/src/lib/time-utils.ts:71-84 | the spoken time names the instant's hour, minute and second exactly, in both modes, with the minute and second as spoken Sino-Korean words, never digits |
| `TimeUtils.FormatTimeToKoreanExamples` | client/src/lib/time-utils.ts:71-84 | midnight is "0 시 영 분 영 초" in 24-hour mode and "오전 열두 시 영 분 영 초" in 12-hour mode; 15:00 in 12-hour mode is "오후 세 시 영 분 영 초" |
| `Home.Pad2Digits` | client/src/pages/home.tsx:18 | a field below 100 pads to exactly two digits that read back as the field |
| `Home.FormatTime24Shape` | client/src/pages/home.tsx:17-18 | the 24-hour display is eight characters: digits with ':' at positions 2 and 5 |
| `Home.FormatTime12Hour` | client/src/pages/home.tsx:19-22 | the 12-hour display is period, blank, an unpadded hour of one or two digits ("12" at midnight and noon), then ":MM:SS" |
| `Home.FormatTime` | client/src/pages/home.tsx:12-24 | the digital display reads back as the instant's hour, minute and second, in both modes |
| `Home.FormatClock` | client/src/pages/home.tsx:12-24 | the formatting of in-range fields reads back as those fields, in both modes |
| `Home.ConvertNumberToKorean` | client/src/pages/home.tsx:41-53 | the page's copy of `convertNumberToKorean` agrees with the utility's on every input |
| `Home.FormatTimeKorean` | client/src/pages/home.tsx:26-39 | the page's spoken time starts with the period prefix and then the hour as a Sino-Korean numeral; `FormatTimeKoreanRoundTrip` shows the whole phrase names the time |
| `Home.FormatTimeKoreanRoundTrip` | client/src/pages/home.tsx:26-39 | the page's spoken time names the clock time exactly, with hour, minute and second all as spoken Sino-Korean words, never digits |
| `Home.FormatTimeKoreanExamples` | client/src/pages/home.tsx:26-39 | 15:00 in 12-hour mode is "오후 삼 시 영 분 영 초" on the page but "오후 세 시 …" from the utility |
| `Home.Displayed` | client/src/pages/home.tsx:72 | the instant shown on the face is the override whenever one is set (a Date is always truthy), and the ticking instant otherwise |
| `Home.Route` | client/src/pages/home.tsx:71-133 | the voice control and clock face get the displayed instant; the digital and Korean displays and the calculators get the ticking instant; the calculators also get the override |
| `Home.SetManualTime` | client/src/pages/home.tsx:121 | a drag sets the override and leaves the ticking instant alone |
| `Home.PressReset` | client/src/pages/home.tsx:105-108 | the reset button, shown only while an override is set, clears it |
| `Home.LiveWidgetsIgnoreOverride` | client/src/pages/home.tsx:100-103 | the "현재 시간" displays and the calculators do not depend on the override |
| `Home.OverrideUntilReset` | client/src/pages/home.tsx:105-121 | after a drag the face and voice control keep showing the set time as the clock ticks, until reset returns them to the ticking instant |
| `AnalogClock.TickAngle` | client/src/components/analog-clock.tsx:90-91 | position k of 60 sits at 6k degrees from 12 o'clock |
| `AnalogClock.HourHandAngle` | client/src/components/analog-clock.tsx:85-89 | the hour hand's angle lies in [-90, 270) |
| `AnalogClock.MinuteHandAngle` | client/src/components/analog-clock.tsx:90 | the minute hand points at the minute's position |
| `AnalogClock.SecondHandAngle` | client/src/components/analog-clock.tsx:91 | the second hand points at the second's position |
| `AnalogClock.HourHandFollowsHalfDay` | client/src/components/analog-clock.tsx:85-89 | the hour hand turns half a degree per minute of the half day |
| `AnalogClock.TwelveHoursLater` | client/src/components/analog-clock.tsx:85-87 | twelve hours later, hour modulo 12, minute and second read the same |
| `AnalogClock.FaceRepeatsEveryTwelveHours` | client/src/components/analog-clock.tsx:85-91 | a time and the time twelve hours later show identical hands |
| `AnalogClock.PointerAngle` | client/src/components/analog-clock.tsx:205 | the pointer's `atan2` angle for a hand lies in (-180, 180] and equals the hand's angle or that minus a full turn |
| `AnalogClock.DialRadius` | client/src/components/analog-clock.tsx:149 | the radius is the smaller half-side minus 10 |
| `AnalogClock.HandAt` | client/src/components/analog-clock.tsx:151-154 | for a positive radius: second hand beyond 80% of the radius, minute in (70%, 80%], hour in (50%, 70%], nothing within 50% |
| `AnalogClock.HandAtMonotone` | client/src/components/analog-clock.tsx:151-154 | a press farther out never selects a shorter hand |
| `AnalogClock.HandTipsGrabShorterHand` | client/src/components/analog-clock.tsx:141-155 | a press on a hand's tip (80%, 70%, 50%) selects the next shorter hand, and a press on the hour hand selects nothing |
| `AnalogClock.CanvasBands` | client/src/components/analog-clock.tsx:148-154 | on the 384-pixel canvas the radius is 182, with bands (91, 127.4], (127.4, 145.6] and beyond |
| `AnalogClock.JsRem` | client/src/components/analog-clock.tsx:161 | JavaScript's `%` takes the dividend's sign, is below the divisor in size and is congruent to the dividend |
| `AnalogClock.RawHour` | client/src/components/analog-clock.tsx:161 | the raw hour is congruent to the pointed slot modulo 12, in 0..11 from 12 o'clock clockwise to 9 o'clock and in -11..0 before 12 o'clock |
| `AnalogClock.RawSixty` | client/src/components/analog-clock.tsx:166-169 | the raw minute or second is congruent to the pointed position modulo 60, in 0..59 from 12 o'clock clockwise to 9 o'clock and in -59..0 before 12 o'clock |
| `AnalogClock.RawRanges` | client/src/components/analog-clock.tsx:161-169 | for pointer angles the raw hour is -3..9 and the raw minute/second -15..45, negative exactly on the quarter between 9 and 12 o'clock |
| `AnalogClock.MakeLocalCarry` | client/src/components/analog-clock.tsx:164-167 | out-of-range hours and minutes carry into the next field, leaving seconds and milliseconds |
| `AnalogClock.SetSecondsKeepsMillis` | client/src/components/analog-clock.tsx:170 | `setSeconds` with any value keeps the milliseconds |
| `AnalogClock.UpdateTimeFromAngle` | client/src/components/analog-clock.tsx:157-174 | a drag never changes the fields finer than the dragged hand's, for every angle |
| `AnalogClock.HourDragRightHalf` | client/src/components/analog-clock.tsx:160-164 | off the upper-left quarter an hour drag sets the pointed hour in the same half of the same day |
| `AnalogClock.HourDragFlipsHalfDay` | client/src/components/analog-clock.tsx:160-164 | on the upper-left quarter an hour drag switches 오전/오후 (a morning time goes to the previous evening) |
| `AnalogClock.MinuteDragStepsHourBack` | client/src/components/analog-clock.tsx:165-167 | on the upper-left quarter a minute drag sets the pointed minute one hour earlier |
| `AnalogClock.SecondDragStepsMinuteBack` | client/src/components/analog-clock.tsx:168-170 | on the upper-left quarter a second drag sets the pointed second one minute earlier |
| `AnalogClock.MoveAlongHandAsWritten` | client/src/components/analog-clock.tsx:157-174 | holding the hour hand at 10:30, a move event along the hand (pointer angle -135) gives 22:30 of the previous day; holding the minute hand at 10:50, a move event at -150 gives 9:50 |
| `AnalogClock.IntendedHour` | client/src/components/analog-clock.tsx:161 | the corrected hour is 0..11 |
| `AnalogClock.IntendedSixty` | client/src/components/analog-clock.tsx:166 | the corrected minute or second is 0..59 |
| `AnalogClock.IntendedFullTurn` | client/src/components/analog-clock.tsx:161-169 | a full turn does not change the corrected position |
| `AnalogClock.IntendedUpdateTimeFromAngle` | client/src/components/analog-clock.tsx:157-174 | the corrected drag changes only the dragged field, to the pointed position, keeping the day and the half of the day |
| `AnalogClock.IntendedAgreesOffUpperLeft` | client/src/components/analog-clock.tsx:157-174 | off the upper-left quarter the corrected and written drags agree |
| `AnalogClock.HourHandPointsAtHour` | client/src/components/analog-clock.tsx:85-89 | the hour hand's angle lies in the slot of its own hour |
| `AnalogClock.TickPointsAtPosition` | client/src/components/analog-clock.tsx:90-91 | a minute or second hand's angle names its own position |
| `AnalogClock.MoveAlongHandKeepsTime` | client/src/components/analog-clock.tsx:157-174 | with the corrected drag, a move event along the held hand's own direction leaves the time unchanged |
| `AnalogClock.HourMarkAngle` | client/src/components/analog-clock.tsx:38 | hour marker i sits at minute position 5i |
| `AnalogClock.HourMarks` | client/src/components/analog-clock.tsx:37-50 | twelve hour markers, marker i at i·30 − 90 degrees |
| `AnalogClock.MinuteMarks` | client/src/components/analog-clock.tsx:53-68 | the thin marks are drawn at exactly the 48 positions that are not multiples of 5, in increasing order |
| `AnalogClock.EveryMinuteMarked` | client/src/components/analog-clock.tsx:37-68 | each minute position has an hour marker or a thin mark |
| `AnalogClock.HourHandPointsAtNumeral` | client/src/components/analog-clock.tsx:76-89 | numeral slot i shows the 12-hour reading of i, and on the hour the hour hand points at the numeral the digital display shows |
| `AnalogClock.ClockCanvas.constructor` | client/src/components/analog-clock.tsx:229-242 | a 384×384 canvas, no hand held, default cursor |
| `AnalogClock.ClockCanvas.MouseDown` | client/src/components/analog-clock.tsx:176-193 | a press in a hand's band holds that hand with the grabbing cursor; a press near the centre changes nothing |
| `AnalogClock.ClockCanvas.MouseMove` | client/src/components/analog-clock.tsx:195-207 | a new time is emitted exactly while a hand is held: the drag result for the pointer angle, equal to the corrected one off the upper-left quarter |
| `AnalogClock.ClockCanvas.MouseUp` | client/src/components/analog-clock.tsx:209-215 | release (and leave) ends the drag and shows the grab cursor |
| `AnalogClock.ClockCanvas.MouseEnter` | client/src/components/analog-clock.tsx:217-223 | on entry the cursor is grab over a hand's band and default elsewhere; the drag state is untouched |

## Left out

- Drawing: the canvas calls that paint the face, markers, numerals and hands, and their colours and line widths. The model keeps what they draw and where.
- The second hand being hidden while speech is playing is drawing only, and is not modelled.
- `Math.atan2` and `Math.sqrt`, and rescaling client coordinates to canvas pixels. The handlers take the pointer's distance from the centre and its angle in degrees as parameters.
- Floating point: angles and distances are exact reals, so rounding at band and slot boundaries is not modelled.
- The early returns when the canvas is not mounted (`canvasRef.current` null); the canvas always exists here.
- The `offset` field of the drag state, which is always 0 and never read.
- Time zones and daylight saving: local time is the millisecond count read in whole days. The clock, `new Date()`, is a parameter `now`; the two `new Date()` calls of `calculateTimeDifference` are taken to read the same instant.
- TimeUtils.CalculateTimeDifference: requires every text argument's first two ':'-separated pieces to be ASCII digits, which is what `<input type="time">` produces; other text is not modelled. That includes text `Number` still reads (" 7:30", "-1:30", "7.5:30") and text it reads as `NaN`, which gives an invalid date. The `catch` branch that returns `null` is not modelled either.
- TimeUtils.ResolveArg and TimeUtils.CalculateTimeDifference: a Date is an unbounded integer, so ECMAScript's time-value range (TimeClip: at most 8.64e15 ms from the epoch) is not modelled. An "HH:MM" text with a huge hour such as "9999999999:00" makes `setHours` give an invalid date in JavaScript, hence NaN fields and the description "남음" when it is the target; the model instead gives a finite instant and a finite difference.
- KoreanNumerals.SinoKorean: takes a non-negative integer. In JavaScript a negative input gives `undefined`, and a fractional one below 10 (0.5, 5.5) also gives `undefined`, and one from 10 on gives a malformed string ("십undefined" for 15.5, "60.5" for 60.5); the clock getters never produce either.
- Text.Trim: removes the blank, tab, carriage return and newline only, not JavaScript's full Unicode white-space set; the page's text contains no other white space.
- The use-clock and use-speech hooks, the voice-control and time-calculations components, and the 12/24-hour toggle's state are not part of this model. The toggle's value is a parameter of each formatter.
- The ordering of mouse events (a leave always preceding the next enter) is not modelled; each handler's effect is stated alone.

## Findings

| source | as written | input that shows it | evidently intended | confidence | as-written member | corrected member |
|---|---|---|---|---|---|---|
| client/src/components/analog-clock.tsx:161-164 | `Math.floor((angle + 90) / 30) % 12` is negative on the quarter between 9 and 12 o'clock, so `setHours` gets an hour 12 below the pointed one | at 10:30, the hour hand pressed on the hour band and moved along its own direction (a move event at pointer angle -135) turns the clock to 22:30 of the previous day; each further move event in that quarter flips it again, because the next move reads the newly set time | set hour 10 in the current half of the same day | high; not executed | `AnalogClock.HourDragFlipsHalfDay` | `AnalogClock.IntendedUpdateTimeFromAngle` |
| client/src/components/analog-clock.tsx:165-170 | `Math.floor((angle + 90) / 6) % 60` is negative on the same quarter, so `setMinutes`/`setSeconds` borrow from the next larger field | at 10:50, the minute hand pressed on the minute band and moved along its own direction (a move event at pointer angle -150) turns the clock to 9:50; each further move event in that quarter steps back another hour, because the next move reads the newly set time | set minute 50 in the same hour | high; not executed | `AnalogClock.MinuteDragStepsHourBack` | `AnalogClock.IntendedUpdateTimeFromAngle` |

The corrected drag takes the remainder with a floored `%`, which never
goes negative. `AnalogClock.MoveAlongHandKeepsTime` proves that with it,
a move event along the held hand's own direction leaves the time
unchanged. A press alone (`handleMouseDown`) and a release
(`handleMouseUp`) never change the time; only a move event while a hand
is held does.
`AnalogClock.MoveAlongHandAsWritten` exhibits both inputs above.
`ClockCanvas.MouseMove` emits the value the handler computes as written.
Its contract also ties that value to the corrected drag wherever the two
agree.

=== FILE: analog_clock.dfy ===
/** The draggable analog clock face: where its hands point, which hand a
    press grabs, how dragging a hand to an angle changes the time, the
    marks and numerals on the dial, and the press/move/release state of
    the canvas. Angles are in degrees, measured clockwise from the
    3 o'clock direction as the canvas does, so 12 o'clock is -90. */
module AnalogClock {
  import opened LocalTime
  import opened Wrappers

  datatype Hand = HourHand | MinuteHand | SecondHand

  /** The canvas is 384 by 384 pixels. */
  const CanvasWidth: real := 384.0
  const CanvasHeight: real := 384.0

  // ---------------------------------------------------------------
  // Hand angles
  // ---------------------------------------------------------------

  /** The angle of minute or second position `k` (and of dial mark `k`). */
  function TickAngle(k: int): (a: int)
    ensures 0 <= k < 60 ==> -90 <= a < 270
    ensures a + 90 == 6 * k
  {
    k * 6 - 90
  }

  /** The hour hand: 30 degrees per hour of the 12-hour dial plus half a
      degree per minute. */
  function HourHandAngle(t: int): (a: real)
    ensures -90.0 <= a < 270.0
  {
    ((Hours(t) % 12) * 30) as real + (Minutes(t) as real) * 0.5 - 90.0
  }

  function MinuteHandAngle(t: int): (a: real)
    ensures a == TickAngle(Minutes(t)) as real
  {
    (Minutes(t) * 6) as real - 90.0
  }

  function SecondHandAngle(t: int): (a: real)
    ensures a == TickAngle(Seconds(t)) as real
  {
    (Seconds(t) * 6) as real - 90.0
  }

  function HandAngle(hand: Hand, t: int): real {
    match hand
    case HourHand => HourHandAngle(t)
    case MinuteHand => MinuteHandAngle(t)
    case SecondHand => SecondHandAngle(t)
  }

  /** The minutes elapsed since the last midnight or noon. */
  function MinuteOfHalfDay(t: int): (n: int)
    ensures 0 <= n < 720
  {
    (t / MsPerMinute) % 720
  }

  /** The hour hand turns half a degree per minute over the half day and
      jumps nowhere: its angle is fixed by the minute of the half day. */
  lemma HourHandFollowsHalfDay(t: int)
    ensures HourHandAngle(t) == (MinuteOfHalfDay(t) as real) * 0.5 - 90.0
  {
    Decompose(t);
    var h, m := Hours(t), Minutes(t);
    FieldsOfMakeLocal(Day(t), h, m, Seconds(t), Millis(t));
    assert t / MsPerMinute == (Day(t) * 24 + h) * 60 + m;
    DivMod(t / MsPerMinute, 720, Day(t) * 2 + h / 12, (h % 12) * 60 + m);
  }

  /** Twelve hours later the clock fields read the same, except that the
      half of the day has changed. */
  lemma TwelveHoursLater(t: int)
    ensures var u := t + 12 * MsPerHour;
      Hours(u) % 12 == Hours(t) % 12 && Minutes(u) == Minutes(t) && Seconds(u) == Seconds(t)
  {
    Decompose(t);
    var d, h, m, s, ms := Day(t), Hours(t), Minutes(t), Seconds(t), Millis(t);
    if h < 12 {
      assert t + 12 * MsPerHour == MakeLocal(d, h + 12, m, s, ms);
      FieldsOfMakeLocal(d, h + 12, m, s, ms);
    } else {
      assert t + 12 * MsPerHour == MakeLocal(d + 1, h - 12, m, s, ms);
      FieldsOfMakeLocal(d + 1, h - 12, m, s, ms);
    }
  }

  /** A time and the same time twelve hours later look alike on the face. */
  lemma FaceRepeatsEveryTwelveHours(t: int)
    ensures HandAngle(HourHand, t + 12 * MsPerHour) == HandAngle(HourHand, t)
    ensures HandAngle(MinuteHand, t + 12 * MsPerHour) == HandAngle(MinuteHand, t)
    ensures HandAngle(SecondHand, t + 12 * MsPerHour) == HandAngle(SecondHand, t)
  {
    TwelveHoursLater(t);
  }

  /** The direction of a hand as the pointer's `atan2` reports it: in
      (-180, 180], so the left half of the dial below 9 o'clock and above
      it is reached through negative angles. */
  function PointerAngle(a: real): (r: real)
    requires -90.0 <= a < 270.0
    ensures -180.0 < r <= 180.0
    ensures r == a || r == a - 360.0
  {
    if a > 180.0 then a - 360.0 else a
  }

  // ---------------------------------------------------------------
  // Which hand a press grabs
  // ---------------------------------------------------------------

  /** `Math.min(centerX, centerY) - 10`. */
  function DialRadius(width: real, height: real): (r: real)
    ensures r <= width / 2.0 - 10.0 && r <= height / 2.0 - 10.0
    ensures r == width / 2.0 - 10.0 || r == height / 2.0 - 10.0
  {
    (if width / 2.0 <= height / 2.0 then width / 2.0 else height / 2.0) - 10.0
  }

  /** `getHandFromPosition`, on the distance of the press from the centre:
      beyond 80% of the radius (the outside of the dial included) the
      second hand, beyond 70% the minute hand, beyond 50% the hour hand,
      and nothing nearer the centre. */
  function HandAt(distance: real, radius: real): (h: Option<Hand>)
    requires radius > 0.0
    ensures h == Some(SecondHand) <==> distance > radius * 0.8
    ensures h == Some(MinuteHand) <==> radius * 0.7 < distance <= radius * 0.8
    ensures h == Some(HourHand) <==> radius * 0.5 < distance <= radius * 0.7
    ensures h == None <==> distance <= radius * 0.5
  {
    if distance > radius * 0.8 then Some(SecondHand)
    else if distance > radius * 0.7 then Some(MinuteHand)
    else if distance > radius * 0.5 then Some(HourHand)
    else None
  }

  /** Longer hands are grabbed farther out: none, hour, minute, second. */
  function Reach(h: Option<Hand>): nat {
    match h
    case None => 0
    case Some(HourHand) => 1
    case Some(MinuteHand) => 2
    case Some(SecondHand) => 3
  }

  /** Moving a press outward never selects a shorter hand. */
  lemma HandAtMonotone(d1: real, d2: real, radius: real)
    requires 0.0 < radius && d1 <= d2
    ensures Reach(HandAt(d1, radius)) <= Reach(HandAt(d2, radius))
  {
  }

  /** The hands are drawn to 50%, 70% and 80% of the radius, and each
      band lies beyond its own hand's tip: a press on the tip of a hand
      grabs the next shorter hand, and a press on the hour hand grabs
      nothing. */
  lemma HandTipsGrabShorterHand(radius: real)
    requires radius > 0.0
    ensures HandAt(radius * 0.8, radius) == Some(MinuteHand)
    ensures HandAt(radius * 0.7, radius) == Some(HourHand)
    ensures HandAt(radius * 0.5, radius) == None
    ensures forall d :: 0.0 <= d <= radius * 0.5 ==> HandAt(d, radius) == None
  {
  }

  /** On the 384-pixel canvas the radius is 182 pixels: the hour band is
      (91, 127.4], the minute band (127.4, 145.6], the second band beyond. */
  lemma CanvasBands()
    ensures DialRadius(CanvasWidth, CanvasHeight) == 182.0
    ensures HandAt(91.0, 182.0) == None && HandAt(92.0, 182.0) == Some(HourHand)
    ensures HandAt(127.0, 182.0) == Some(HourHand) && HandAt(128.0, 182.0) == Some(MinuteHand)
    ensures HandAt(145.0, 182.0) == Some(MinuteHand) && HandAt(146.0, 182.0) == Some(SecondHand)
    ensures HandAt(500.0, 182.0) == Some(SecondHand)
  {
  }

  // ---------------------------------------------------------------
  // Dragging a hand, as written
  // ---------------------------------------------------------------

  /** JavaScript's `%`, which truncates toward zero: the remainder takes
      the sign of the dividend. */
  function JsRem(a: int, b: int): (r: int)
    requires b > 0
    ensures a >= 0 ==> 0 <= r < b
    ensures a < 0 ==> -b < r <= 0
    ensures (a - r) % b == 0
  {
    if a >= 0 then
      DivMod(a - a % b, b, a / b, 0);
      a % b
    else
      DivMod(a + (-a) % b, b, -((-a) / b), 0);
      -((-a) % b)
  }

  /** `Math.floor((angle + 90) / 30) % 12`. */
  function RawHour(angle: real): (r: int)
    ensures angle >= -90.0 ==> 0 <= r < 12
    ensures angle < -90.0 ==> -12 < r <= 0
    ensures (((angle + 90.0) / 30.0).Floor - r) % 12 == 0
  {
    JsRem(((angle + 90.0) / 30.0).Floor, 12)
  }

  /** `Math.floor((angle + 90) / 6) % 60`. */
  function RawSixty(angle: real): (r: int)
    ensures angle >= -90.0 ==> 0 <= r < 60
    ensures angle < -90.0 ==> -60 < r <= 0
    ensures (((angle + 90.0) / 6.0).Floor - r) % 60 == 0
  {
    JsRem(((angle + 90.0) / 6.0).Floor, 60)
  }

  /** For pointer angles the raw values stay within -3..9 and -15..45, and
      are negative exactly on the upper-left quarter of the dial, between
      9 and 12 o'clock. */
  lemma RawRanges(angle: real)
    requires -180.0 <= angle <= 180.0
    ensures -3 <= RawHour(angle) <= 9 && -15 <= RawSixty(angle) <= 45
    ensures RawHour(angle) < 0 <==> angle < -90.0
    ensures RawSixty(angle) < 0 <==> angle < -90.0
    ensures RawHour(angle) == ((angle + 90.0) / 30.0).Floor
    ensures RawSixty(angle) == ((angle + 90.0) / 6.0).Floor
  {
  }

  /** An instant whose seconds and milliseconds are in range, with hour
      and minute fields that carry into the next larger field the way
      JavaScript normalises them. */
  lemma MakeLocalCarry(day: int, h: int, m: int, s: int, ms: int)
    requires 0 <= s < 60 && 0 <= ms < 1000
    ensures var t := MakeLocal(day, h, m, s, ms);
      Seconds(t) == s && Millis(t) == ms && Minutes(t) == m % 60 &&
      Hours(t) == (h + m / 60) % 24 && Day(t) == day + (h + m / 60) / 24
  {
    var c := m / 60;
    var h2 := h + c;
    assert m == c * 60 + m % 60;
    assert h2 == (h2 / 24) * 24 + h2 % 24;
    assert MakeLocal(day, h, m, s, ms) == MakeLocal(day + h2 / 24, h2 % 24, m % 60, s, ms);
    FieldsOfMakeLocal(day + h2 / 24, h2 % 24, m % 60, s, ms);
  }

  /** `setSeconds` with any value leaves the milliseconds alone. */
  lemma SetSecondsKeepsMillis(t: int, s: int)
    ensures Millis(SetSeconds(t, s)) == Millis(t)
  {
    DivMod(SetSeconds(t, s), MsPerSecond, t / MsPerSecond + s - Seconds(t), t % MsPerSecond);
  }

  /** `updateTimeFromAngle`: the hour hand sets the hour from the angle,
      keeping the current half of the day by adding 12 in the afternoon;
      the minute and second hands set their field from the angle. Each
      drag leaves the finer fields alone, whatever the angle. */
  function UpdateTimeFromAngle(hand: Hand, angle: real, current: int): (r: int)
    ensures Millis(r) == Millis(current)
    ensures hand != SecondHand ==> Seconds(r) == Seconds(current)
    ensures hand == HourHand ==> Minutes(r) == Minutes(current)
  {
    match hand
    case HourHand =>
      var hours := RawHour(angle);
      var r := SetHours(current, if IsPM(Hours(current)) then hours + 12 else hours);
      MakeLocalCarry(Day(current), if IsPM(Hours(current)) then hours + 12 else hours,
                     Minutes(current), Seconds(current), Millis(current));
      r
    case MinuteHand =>
      var r := SetMinutes(current, RawSixty(angle));
      MakeLocalCarry(Day(current), Hours(current), RawSixty(angle), Seconds(current), Millis(current));
      r
    case SecondHand =>
      SetSecondsKeepsMillis(current, RawSixty(angle));
      SetSeconds(current, RawSixty(angle))
  }

  /** On the right half of the dial and the top (12 to 9 o'clock
      clockwise) an hour drag sets the hour the angle names, in the same
      half of the same day. */
  lemma HourDragRightHalf(angle: real, t: int)
    requires -90.0 <= angle <= 180.0
    ensures var r := UpdateTimeFromAngle(HourHand, angle, t);
      Day(r) == Day(t) && IsPM(Hours(r)) == IsPM(Hours(t)) && Hours(r) % 12 == RawHour(angle) &&
      Minutes(r) == Minutes(t) && Seconds(r) == Seconds(t)
  {
    RawRanges(angle);
    SetHoursInRange(t, if IsPM(Hours(t)) then RawHour(angle) + 12 else RawHour(angle));
  }

  /** On the upper-left quarter an hour drag switches the half of the day:
      in the afternoon it lands in the morning of the same day, in the
      morning in the evening of the previous day. */
  lemma HourDragFlipsHalfDay(angle: real, t: int)
    requires -180.0 <= angle < -90.0
    ensures var r := UpdateTimeFromAngle(HourHand, angle, t);
      IsPM(Hours(r)) != IsPM(Hours(t)) && Hours(r) % 12 == IntendedHour(angle) &&
      Day(r) == (if IsPM(Hours(t)) then Day(t) else Day(t) - 1)
  {
    RawRanges(angle);
    if IsPM(Hours(t)) {
      SetHoursInRange(t, RawHour(angle) + 12);
    } else {
      SetHoursNegative(t, RawHour(angle));
    }
  }

  /** On the upper-left quarter a minute drag sets the minute the angle
      names, but in the previous hour. */
  lemma MinuteDragStepsHourBack(angle: real, t: int)
    requires -180.0 <= angle < -90.0
    ensures var r := UpdateTimeFromAngle(MinuteHand, angle, t);
      Minutes(r) == IntendedSixty(angle) && r / MsPerHour == t / MsPerHour - 1
  {
    RawRanges(angle);
    SetMinutesNegative(t, RawSixty(angle));
  }

  /** Likewise a second drag lands in the previous minute. */
  lemma SecondDragStepsMinuteBack(angle: real, t: int)
    requires -180.0 <= angle < -90.0
    ensures var r := UpdateTimeFromAngle(SecondHand, angle, t);
      Seconds(r) == IntendedSixty(angle) && r / MsPerMinute == t / MsPerMinute - 1
  {
    RawRanges(angle);
    SetSecondsNegative(t, RawSixty(angle));
  }

  /** Holding the hour hand at 10:30, a move event along the hand's own
      direction (pointer angle -135) turns the clock to 22:30 of the
      previous day; holding the minute hand at 10:50, a move event at
      pointer angle -150 turns it to 9:50. */
  lemma MoveAlongHandAsWritten()
    ensures var t := MakeLocal(0, 10, 30, 0, 0);
      PointerAngle(HourHandAngle(t)) == -135.0 &&
      UpdateTimeFromAngle(HourHand, -135.0, t) == MakeLocal(-1, 22, 30, 0, 0)
    ensures var t := MakeLocal(0, 10, 50, 0, 0);
      PointerAngle(MinuteHandAngle(t)) == -150.0 &&
      UpdateTimeFromAngle(MinuteHand, -150.0, t) == MakeLocal(0, 9, 50, 0, 0)
  {
    FieldsOfMakeLocal(0, 10, 30, 0, 0);
    FieldsOfMakeLocal(0, 10, 50, 0, 0);
    assert ((-135.0 + 90.0) / 30.0).Floor == -2;
    assert ((-150.0 + 90.0) / 6.0).Floor == -10;
  }

  // ---------------------------------------------------------------
  // Dragging a hand, corrected
  // ---------------------------------------------------------------

  /** The hour the angle points at, 0..11, with a floored remainder. */
  function IntendedHour(angle: real): (h: int)
    ensures 0 <= h < 12
  {
    ((angle + 90.0) / 30.0).Floor % 12
  }

  /** The minute or second the angle points at, 0..59. */
  function IntendedSixty(angle: real): (m: int)
    ensures 0 <= m < 60
  {
    ((angle + 90.0) / 6.0).Floor % 60
  }

  /** Turning a full circle does not change what the angle points at. */
  lemma IntendedFullTurn(angle: real)
    ensures IntendedHour(angle - 360.0) == IntendedHour(angle)
    ensures IntendedSixty(angle - 360.0) == IntendedSixty(angle)
  {
    var x := (angle + 90.0) / 30.0;
    assert (angle - 360.0 + 90.0) / 30.0 == x - 12 as real;
    FloorShift(x, 12);
    DivMod(x.Floor - 12, 12, x.Floor / 12 - 1, x.Floor % 12);
    var y := (angle + 90.0) / 6.0;
    assert (angle - 360.0 + 90.0) / 6.0 == y - 60 as real;
    FloorShift(y, 60);
    DivMod(y.Floor - 60, 60, y.Floor / 60 - 1, y.Floor % 60);
  }

  lemma FloorShift(x: real, k: int)
    ensures (x - k as real).Floor == x.Floor - k
  {
  }

  /** `updateTimeFromAngle` with the remainder taken so that it never goes
      negative: a drag changes only the dragged hand's field, to the
      position the angle names, and keeps the day and the half of the day. */
  function IntendedUpdateTimeFromAngle(hand: Hand, angle: real, current: int): (r: int)
    ensures Day(r) == Day(current) && Millis(r) == Millis(current)
    ensures hand == HourHand ==>
      IsPM(Hours(r)) == IsPM(Hours(current)) && Hours(r) % 12 == IntendedHour(angle) &&
      Minutes(r) == Minutes(current) && Seconds(r) == Seconds(current)
    ensures hand == MinuteHand ==>
      Hours(r) == Hours(current) && Minutes(r) == IntendedSixty(angle) && Seconds(r) == Seconds(current)
    ensures hand == SecondHand ==>
      Hours(r) == Hours(current) && Minutes(r) == Minutes(current) && Seconds(r) == IntendedSixty(angle)
  {
    match hand
    case HourHand =>
      var hours := IntendedHour(angle);
      var h := if IsPM(Hours(current)) then hours + 12 else hours;
      SetHoursInRange(current, h);
      SetHours(current, h)
    case MinuteHand =>
      SetMinutesInRange(current, IntendedSixty(angle));
      SetMinutes(current, IntendedSixty(angle))
    case SecondHand =>
      SetSecondsInRange(current, IntendedSixty(angle));
      SetSeconds(current, IntendedSixty(angle))
  }

  /** Outside the upper-left quarter the corrected drag and the drag as
      written agree. */
  lemma IntendedAgreesOffUpperLeft(hand: Hand, angle: real, t: int)
    requires -90.0 <= angle <= 180.0
    ensures IntendedUpdateTimeFromAngle(hand, angle, t) == UpdateTimeFromAngle(hand, angle, t)
  {
    RawRanges(angle);
  }

  /** With the corrected drag, a move event along the held hand's own
      direction leaves the time as it was. */
  lemma MoveAlongHandKeepsTime(hand: Hand, t: int)
    ensures IntendedUpdateTimeFromAngle(hand, PointerAngle(HandAngle(hand, t)), t) == t
  {
    var a := HandAngle(hand, t);
    IntendedFullTurn(a);
    match hand
    case HourHand => HourHandPointsAtHour(t);
    case MinuteHand => TickPointsAtPosition(Minutes(t));
    case SecondHand => TickPointsAtPosition(Seconds(t));
  }

  /** The hour hand points into the slot of its own hour. */
  lemma HourHandPointsAtHour(t: int)
    ensures IntendedHour(HourHandAngle(t)) == Hours(t) % 12
    ensures (if IsPM(Hours(t)) then Hours(t) % 12 + 12 else Hours(t) % 12) == Hours(t)
  {
    var h12, m := Hours(t) % 12, Minutes(t);
    var x := (HourHandAngle(t) + 90.0) / 30.0;
    assert x == h12 as real + (m as real) / 60.0;
    assert h12 as real <= x < h12 as real + 1.0;
  }

  /** A minute or second hand points at its own position. */
  lemma TickPointsAtPosition(k: int)
    requires 0 <= k < 60
    ensures IntendedSixty(TickAngle(k) as real) == k
  {
    assert (TickAngle(k) as real + 90.0) / 6.0 == k as real;
  }

  // ---------------------------------------------------------------
  // The dial
  // ---------------------------------------------------------------

  /** The angle of hour marker and numeral slot `i`. */
  function HourMarkAngle(i: int): (a: int)
    ensures a == TickAngle(5 * i)
  {
    i * 30 - 90
  }

  /** The numerals in drawing order, 12 at the top. */
  const Numerals: seq<int> := [12, 1, 2, 3, 4, 5, 6, 7, 8, 9, 10, 11]

  /** The hour-marker loop: twelve markers, one per hour slot. */
  method HourMarks() returns (angles: seq<int>)
    ensures |angles| == 12
    ensures forall i :: 0 <= i < 12 ==> angles[i] == HourMarkAngle(i)
  {
    angles := [];
    var i := 0;
    while i < 12
      invariant 0 <= i <= 12 && |angles| == i
      invariant forall k :: 0 <= k < i ==> angles[k] == HourMarkAngle(k)
    {
      angles := angles + [i * 30 - 90];
      i := i + 1;
    }
  }

  /** A thin minute mark is drawn at every position that is not an hour
      marker. */
  predicate IsThinMark(i: int) {
    0 <= i < 60 && i % 5 != 0
  }

  /** The minute-marker loop: the positions whose thin mark is drawn, in
      order, 48 of them. */
  method MinuteMarks() returns (marks: seq<int>)
    ensures |marks| == 48
    ensures forall i :: i in marks <==> IsThinMark(i)
    ensures forall j, k :: 0 <= j < k < |marks| ==> marks[j] < marks[k]
  {
    marks := [];
    var i := 0;
    while i < 60
      invariant 0 <= i <= 60
      invariant |marks| == i - (i + 4) / 5
      invariant forall k :: 0 <= k < |marks| ==> IsThinMark(marks[k]) && marks[k] < i
      invariant forall j :: 0 <= j < i && IsThinMark(j) ==> j in marks
      invariant forall j, k :: 0 <= j < k < |marks| ==> marks[j] < marks[k]
    {
      if i % 5 != 0 {
        marks := marks + [i];
      }
      i := i + 1;
    }
  }

  /** Every minute position has a mark: an hour marker on every fifth
      position, a thin mark on the others. */
  lemma EveryMinuteMarked(m: int)
    requires 0 <= m < 60
    ensures m % 5 == 0 <==> TickAngle(m) == HourMarkAngle(m / 5)
    ensures m % 5 != 0 <==> IsThinMark(m)
  {
  }

  /** Numeral slot `i` shows the 12-hour reading of hour `i`, and on the
      hour the hour hand points at the numeral the digital display shows. */
  lemma HourHandPointsAtNumeral(t: int)
    ensures forall i :: 0 <= i < 12 ==> Numerals[i] == Hour12(i)
    ensures Minutes(t) == 0 ==>
      HourHandAngle(t) == HourMarkAngle(Hours(t) % 12) as real &&
      Numerals[Hours(t) % 12] == Hour12(Hours(t))
  {
  }

  // ---------------------------------------------------------------
  // The canvas and its mouse handlers
  // ---------------------------------------------------------------

  datatype Cursor = DefaultCursor | Grab | Grabbing

  /** The canvas element with the component's drag state (`isDragging`,
      whose offset is always 0 and not kept here) and its cursor style. */
  class ClockCanvas {
    const width: real := CanvasWidth
    const height: real := CanvasHeight
    var dragging: Option<Hand>
    var cursor: Cursor

    /** The canvas starts with the browser's default cursor: the
        component sets a cursor style only in its mouse handlers. */
    constructor ()
      ensures width == CanvasWidth && height == CanvasHeight
      ensures dragging == None && cursor == DefaultCursor
    {
      dragging := None;
      cursor := DefaultCursor;
    }

    /** `handleMouseDown`: a press within a hand's band starts dragging
        that hand; a press near the centre does nothing. */
    method MouseDown(distance: real)
      modifies this
      ensures var hand := HandAt(distance, DialRadius(width, height));
        if hand == None then dragging == old(dragging) && cursor == old(cursor)
        else dragging == hand && cursor == Grabbing
    {
      var hand := HandAt(distance, DialRadius(width, height));
      if hand != None {
        dragging := hand;
        cursor := Grabbing;
      }
    }

    /** `handleMouseMove`: while a hand is held, the new time for the
        pointer's angle is handed to `onTimeChange`; otherwise nothing is
        emitted. The drag state is not changed. */
    method MouseMove(angle: real, currentTime: int) returns (emitted: Option<int>)
      ensures emitted.Some? <==> dragging.Some?
      ensures dragging.Some? ==> emitted.value == UpdateTimeFromAngle(dragging.value, angle, currentTime)
      ensures dragging.Some? && -90.0 <= angle <= 180.0 ==>
        emitted.value == IntendedUpdateTimeFromAngle(dragging.value, angle, currentTime)
    {
      if dragging.Some? {
        if -90.0 <= angle <= 180.0 {
          IntendedAgreesOffUpperLeft(dragging.value, angle, currentTime);
        }
        emitted := Some(UpdateTimeFromAngle(dragging.value, angle, currentTime));
      } else {
        emitted := None;
      }
    }

    /** `handleMouseUp`, also bound to mouse-leave: the drag ends and the
        cursor invites grabbing again. */
    method MouseUp()
      modifies this
      ensures dragging == None && cursor == Grab
    {
      dragging := None;
      cursor := Grab;
    }

    /** `handleMouseEnter`: the cursor shows whether the entry point is on
        a hand's band; the drag state is not touched. */
    method MouseEnter(distance: real)
      modifies this`cursor
      ensures cursor == (if HandAt(distance, DialRadius(width, height)).Some? then Grab else DefaultCursor)
    {
      cursor := if HandAt(distance, DialRadius(width, height)).Some? then Grab else DefaultCursor;
    }
  }
}

=== FILE: decimal.dfy ===
/** Decimal numerals: JavaScript's `Number.prototype.toString()` for
    non-negative integers, and its inverse (the numeric reading that
    `Number(...)` gives a string of ASCII digits). */
module Decimal {

  predicate IsDigit(c: char) {
    '0' <= c <= '9'
  }

  predicate AllDigits(s: string) {
    forall i :: 0 <= i < |s| ==> IsDigit(s[i])
  }

  function DigitChar(d: nat): (c: char)
    requires d < 10
    ensures IsDigit(c)
  {
    (('0' as int) + d) as char
  }

  function DigitValue(c: char): (d: nat)
    requires IsDigit(c)
    ensures d < 10
  {
    (c as int) - ('0' as int)
  }

  /** `n.toString()` for a non-negative integer: shortest base-10 numeral. */
  function DecimalString(n: nat): (s: string)
    ensures 1 <= |s| && AllDigits(s)
    ensures (n < 10) <==> (|s| == 1)
    ensures s[0] == '0' <==> n == 0
    decreases n
  {
    if n < 10 then [DigitChar(n)] else DecimalString(n / 10) + [DigitChar(n % 10)]
  }

  /** The value of a string of ASCII digits, most significant first; the
      empty string reads as 0, as `Number('')` does. */
  function ParseDecimal(s: string): nat
    requires AllDigits(s)
  {
    if s == [] then 0 else ParseDecimal(s[..|s| - 1]) * 10 + DigitValue(s[|s| - 1])
  }

  lemma {:induction false} ParseDecimalString(n: nat)
    ensures ParseDecimal(DecimalString(n)) == n
    decreases n
  {
    var s := DecimalString(n);
    if n < 10 {
      assert s[..0] == [];
    } else {
      ParseDecimalString(n / 10);
      assert s[..|s| - 1] == DecimalString(n / 10);
    }
  }

  /** Leading zeros do not change the value of a numeral. */
  lemma {:induction false} ParseLeadingZero(s: string)
    requires AllDigits(s)
    ensures AllDigits("0" + s) && ParseDecimal("0" + s) == ParseDecimal(s)
    decreases |s|
  {
    if s != [] {
      ParseLeadingZero(s[..|s| - 1]);
      assert ("0" + s)[..|"0" + s| - 1] == "0" + s[..|s| - 1];
    } else {
      assert ("0" + s)[..0] == [];
    }
  }

  lemma DecimalStringTwoDigits(n: nat)
    requires 10 <= n < 100
    ensures |DecimalString(n)| == 2
  {
    assert DecimalString(n) == DecimalString(n / 10) + [DigitChar(n % 10)];
  }
}

=== FILE: home.dfy ===
/** The home page: its digital and spoken formatters, its own copy of the
    Sino-Korean numeral helper, and which instant (the ticking current
    time or the time the user set on the clock) each widget is given. */
module Home {
  import opened Decimal
  import opened Text
  import opened LocalTime
  import opened Wrappers
  import KoreanNumerals
  import TimeUtils

  /** `n.toString().padStart(2, '0')`. */
  function Pad2(n: nat): string {
    PadStart(DecimalString(n), 2, '0')
  }

  /** A field below 100 pads to exactly two digits that read back as the field. */
  lemma Pad2Digits(n: nat)
    requires n < 100
    ensures |Pad2(n)| == 2 && AllDigits(Pad2(n)) && ParseDecimal(Pad2(n)) == n
  {
    var d := DecimalString(n);
    ParseDecimalString(n);
    if n < 10 {
      ParseLeadingZero(d);
      assert Pad2(n) == "0" + d;
    } else {
      DecimalStringTwoDigits(n);
    }
  }

  /** "오후" from noon on, "오전" before. */
  function Period(h: int): string {
    if h >= 12 then "오후" else "오전"
  }

  /** `formatTime(time, use24Hour)`: "HH:MM:SS" zero-padded in 24-hour
      mode; in 12-hour mode the period, a blank, the unpadded hour
      `hours % 12 || 12`, then ":MM:SS" zero-padded. */
  function FormatTime(t: int, use24Hour: bool): (r: string)
    ensures ReadDigitalTime(r, use24Hour) == Some((Hours(t), Minutes(t), Seconds(t)))
  {
    FormatClock(Hours(t), Minutes(t), Seconds(t), use24Hour)
  }

  /** The formatting part of `formatTime`, on the fields the getters
      return. The display shows the clock time exactly: reading it back
      gives the hour, minute and second, in either mode. */
  function FormatClock(hours: int, minutes: int, seconds: int, use24Hour: bool): (r: string)
    requires 0 <= hours < 24 && 0 <= minutes < 60 && 0 <= seconds < 60
    ensures ReadDigitalTime(r, use24Hour) == Some((hours, minutes, seconds))
  {
    Pad2Digits(minutes);
    Pad2Digits(seconds);
    if use24Hour then
      Pad2Digits(hours);
      ReadClockFieldsOf(Pad2(hours), Pad2(minutes), Pad2(seconds));
      Pad2(hours) + ":" + Pad2(minutes) + ":" + Pad2(seconds)
    else
      var h12 := Hour12(hours);
      ParseDecimalString(h12);
      Hour12RoundTrip(hours);
      ReadPeriodClock(Period(hours), DecimalString(h12), Pad2(minutes), Pad2(seconds));
      Period(hours) + " " + DecimalString(h12) + ":" + Pad2(minutes) + ":" + Pad2(seconds)
  }

  /** The 24-hour digital time is eight characters: two digits, ':', two
      digits, ':', two digits. */
  lemma FormatTime24Shape(t: int)
    ensures var r := FormatTime(t, true);
      |r| == 8 && r[2] == ':' && r[5] == ':' &&
      forall k :: 0 <= k < 8 && k != 2 && k != 5 ==> IsDigit(r[k])
  {
    var hs, ms, ss := Pad2(Hours(t)), Pad2(Minutes(t)), Pad2(Seconds(t));
    Pad2Digits(Hours(t));
    Pad2Digits(Minutes(t));
    Pad2Digits(Seconds(t));
    assert FormatTime(t, true) == hs + ":" + ms + ":" + ss;
    ClockShape(hs, ms, ss);
  }

  lemma ClockShape(a: string, b: string, c: string)
    requires |a| == 2 && |b| == 2 && |c| == 2 && AllDigits(a) && AllDigits(b) && AllDigits(c)
    ensures var r := a + ":" + b + ":" + c;
      |r| == 8 && r[2] == ':' && r[5] == ':' &&
      forall k :: 0 <= k < 8 && k != 2 && k != 5 ==> IsDigit(r[k])
  {
    var r := a + ":" + b + ":" + c;
    assert r == [a[0], a[1], ':', b[0], b[1], ':', c[0], c[1]];
  }

  /** In 12-hour mode the hour shown is 1..12 without padding, so midnight
      and noon both show 12, told apart by the period. */
  lemma FormatTime12Hour(t: int)
    ensures var r := FormatTime(t, false);
      var hourText := DecimalString(Hour12(Hours(t)));
      r == Period(Hours(t)) + " " + hourText + ":" + Pad2(Minutes(t)) + ":" + Pad2(Seconds(t)) &&
      1 <= |hourText| <= 2 && (Hours(t) % 12 == 0 ==> hourText == "12")
  {
    var h12 := Hour12(Hours(t));
    if h12 >= 10 {
      DecimalStringTwoDigits(h12);
    }
    if Hours(t) % 12 == 0 {
      assert DecimalString(12) == DecimalString(1) + [DigitChar(2)];
    }
  }

  /** Reads "HH:MM:SS" (any digit counts per field). */
  function ReadClockFields(r: string): Option<(int, int, int)> {
    var parts := Split(r, ':');
    if |parts| == 3 && AllDigits(parts[0]) && AllDigits(parts[1]) && AllDigits(parts[2]) then
      Some((ParseDecimal(parts[0]), ParseDecimal(parts[1]), ParseDecimal(parts[2])))
    else None
  }

  /** Reads a digital time written by `FormatTime` back to (hour, minute,
      second). */
  function ReadDigitalTime(r: string, use24Hour: bool): Option<(int, int, int)> {
    if use24Hour then ReadClockFields(r)
    else
      var words := Split(r, ' ');
      if |words| == 2 && (words[0] == "오전" || words[0] == "오후") && ReadClockFields(words[1]).Some? then
        var fields := ReadClockFields(words[1]).value;
        Some((From12(words[0] == "오후", fields.0), fields.1, fields.2))
      else None
  }

  lemma DigitsHaveNo(s: string, c: char)
    requires AllDigits(s) && !IsDigit(c)
    ensures c !in s
  {
  }

  lemma ReadClockFieldsOf(a: string, b: string, c: string)
    requires AllDigits(a) && AllDigits(b) && AllDigits(c)
    ensures ReadClockFields(a + ":" + b + ":" + c) == Some((ParseDecimal(a), ParseDecimal(b), ParseDecimal(c)))
  {
    DigitsHaveNo(a, ':');
    DigitsHaveNo(b, ':');
    DigitsHaveNo(c, ':');
    JoinThree(a, b, c, ':');
    SplitJoin([a, b, c], ':');
  }

  /** Reading a 12-hour digital time built from its parts. */
  lemma ReadPeriodClock(period: string, h: string, m: string, s: string)
    requires period == "오전" || period == "오후"
    requires AllDigits(h) && AllDigits(m) && AllDigits(s)
    ensures ReadDigitalTime(period + " " + h + ":" + m + ":" + s, false)
            == Some((From12(period == "오후", ParseDecimal(h)), ParseDecimal(m), ParseDecimal(s)))
  {
    var rest := h + ":" + m + ":" + s;
    var r := period + " " + h + ":" + m + ":" + s;
    assert r == period + " " + rest;
    ReadClockFieldsOf(h, m, s);
    NoBlankInClock(h, m, s);
    ReadPeriodRest(period, rest);
    assert ReadClockFields(rest).value == (ParseDecimal(h), ParseDecimal(m), ParseDecimal(s));
  }

  lemma NoBlankInClock(h: string, m: string, s: string)
    requires AllDigits(h) && AllDigits(m) && AllDigits(s)
    ensures ' ' !in h + ":" + m + ":" + s
  {
    DigitsHaveNo(h, ' ');
    DigitsHaveNo(m, ' ');
    DigitsHaveNo(s, ' ');
  }

  lemma ReadPeriodRest(period: string, rest: string)
    requires period == "오전" || period == "오후"
    requires ' ' !in rest && ReadClockFields(rest).Some?
    ensures var fields := ReadClockFields(rest).value;
      ReadDigitalTime(period + " " + rest, false) == Some((From12(period == "오후", fields.0), fields.1, fields.2))
  {
    SplitPeriod(period, rest);
  }

  lemma SplitPeriod(period: string, rest: string)
    requires period == "오전" || period == "오후"
    requires ' ' !in rest
    ensures Split(period + " " + rest, ' ') == [period, rest]
  {
    JoinTwo(period, rest, ' ');
    SplitJoin([period, rest], ' ');
  }

  /** The page's own tables for its copy of `convertNumberToKorean`. */
  const PageOnes: seq<string> := ["", "일", "이", "삼", "사", "오", "육", "칠", "팔", "구"]
  const PageTens: seq<string> := ["", "십", "이십", "삼십", "사십", "오십"]

  /** The page's local `convertNumberToKorean`, which agrees with the
      utility module's on every input. */
  function ConvertNumberToKorean(n: nat): (r: string)
    ensures r == KoreanNumerals.SinoKorean(n)
  {
    assert PageOnes == KoreanNumerals.Ones && PageTens == KoreanNumerals.Tens;
    if n == 0 then "영"
    else if n < 10 then PageOnes[n]
    else if n < 60 then PageTens[n / 10] + (if n % 10 > 0 then PageOnes[n % 10] else "")
    else DecimalString(n)
  }

  /** The page's `formatTimeKorean`: same template as the utility module's
      `formatTimeToKorean`, but the hour too is a Sino-Korean numeral. */
  function FormatTimeKorean(t: int, use24Hour: bool): (r: string)
    ensures var hourText := ConvertNumberToKorean(if use24Hour then Hours(t) else Hour12(Hours(t)));
      var p := TimeUtils.PeriodPrefix(Hours(t), use24Hour);
      |r| > |p| + |hourText| && r[..|p| + |hourText|] == p + hourText
  {
    var hours := Hours(t);
    var displayHours := if use24Hour then hours else Hour12(hours);
    var p := TimeUtils.PeriodPrefix(hours, use24Hour);
    TimeUtils.SpokenTimeStarts(p, ConvertNumberToKorean(displayHours),
                               ConvertNumberToKorean(Minutes(t)), ConvertNumberToKorean(Seconds(t)));
    TimeUtils.SpokenTime(p, ConvertNumberToKorean(displayHours),
                         ConvertNumberToKorean(Minutes(t)), ConvertNumberToKorean(Seconds(t)))
  }

  /** The page's spoken time also names the clock time exactly, its hour
      read as a Sino-Korean numeral. */
  lemma FormatTimeKoreanRoundTrip(t: int, use24Hour: bool)
    ensures TimeUtils.ReadSpokenTime(FormatTimeKorean(t, use24Hour), use24Hour, KoreanNumerals.ReadSinoWord)
            == Some((Hours(t), Minutes(t), Seconds(t)))
  {
    var hours := Hours(t);
    var displayHours := if use24Hour then hours else Hour12(hours);
    KoreanNumerals.SinoWordRoundTrip(displayHours);
    KoreanNumerals.SinoWordRoundTrip(Minutes(t));
    KoreanNumerals.SinoWordRoundTrip(Seconds(t));
    TimeUtils.ReadSpokenTimeCorrect(hours, Minutes(t), Seconds(t), KoreanNumerals.SinoKorean(displayHours),
                                    KoreanNumerals.SinoKorean(Minutes(t)), KoreanNumerals.SinoKorean(Seconds(t)),
                                    use24Hour, KoreanNumerals.ReadSinoWord);
  }

  /** 15:00:00 in 12-hour mode is "오후 삼 시 영 분 영 초" here but "오후 세 시 …"
      from the utility module; hour 0 in 24-hour mode is "영 시". */
  lemma FormatTimeKoreanExamples()
    ensures FormatTimeKorean(15 * MsPerHour, false) == "오후 삼 시 영 분 영 초"
    ensures FormatTimeKorean(15 * MsPerHour, false) != TimeUtils.FormatTimeToKorean(15 * MsPerHour, false)
    ensures FormatTimeKorean(0, true) == "영 시 영 분 영 초"
  {
    FieldsOfMakeLocal(0, 0, 0, 0, 0);
    FieldsOfMakeLocal(0, 15, 0, 0, 0);
    TimeUtils.FormatTimeToKoreanExamples();
  }

  /** The instants the page hands to its widgets. */
  datatype Widgets = Widgets(
    voiceControl: int,            // VoiceControl currentTime
    clockFace: int,               // AnalogClock currentTime
    digitalDisplay: int,          // "현재 시간" formatTime
    koreanDisplay: int,           // "현재 시간" formatTimeKorean
    calculators: int,             // TimeCalculations currentTime
    calculatorsManual: Option<int> // TimeCalculations manualTime
  )

  /** The page state that decides the routing: the ticking instant and the
      override the user set by dragging a hand (null until then). */
  datatype PageState = PageState(currentTime: int, manualTime: Option<int>)

  /** `manualTime || currentTime`: a Date object is always truthy, so a set
      override wins whatever instant it holds. */
  function Displayed(st: PageState): (t: int)
    ensures st.manualTime.Some? ==> t == st.manualTime.value
    ensures st.manualTime.None? ==> t == st.currentTime
  {
    match st.manualTime
    case Some(m) => m
    case None => st.currentTime
  }

  function Route(st: PageState): (w: Widgets)
    ensures w.voiceControl == w.clockFace == Displayed(st)
    ensures w.digitalDisplay == w.koreanDisplay == w.calculators == st.currentTime
    ensures w.calculatorsManual == st.manualTime
  {
    var shown := Displayed(st);
    Widgets(shown, shown, st.currentTime, st.currentTime, st.currentTime, st.manualTime)
  }

  /** The clock face's `onTimeChange` is `setManualTime`. */
  function SetManualTime(st: PageState, t: int): (r: PageState)
    ensures r.currentTime == st.currentTime && r.manualTime == Some(t)
  {
    st.(manualTime := Some(t))
  }

  /** The reset button is rendered only while an override is set. */
  predicate ShowsResetButton(st: PageState) {
    st.manualTime.Some?
  }

  /** Pressing the reset button clears the override. */
  function PressReset(st: PageState): (r: PageState)
    requires ShowsResetButton(st)
    ensures r.currentTime == st.currentTime && r.manualTime == None
  {
    st.(manualTime := None)
  }

  /** The "현재 시간" displays and the calculators never see the override:
      two states with the same ticking instant route them alike. */
  lemma LiveWidgetsIgnoreOverride(a: PageState, b: PageState)
    requires a.currentTime == b.currentTime
    ensures Route(a).digitalDisplay == Route(b).digitalDisplay
    ensures Route(a).koreanDisplay == Route(b).koreanDisplay
    ensures Route(a).calculators == Route(b).calculators
  {
  }

  /** After a drag sets an override, the clock face and voice control show
      it whatever the ticking instant does; a reset returns them to the
      ticking instant and hides the button. */
  lemma OverrideUntilReset(st: PageState, t: int, now: int)
    ensures var s1 := SetManualTime(st, t);
      var s2 := s1.(currentTime := now);
      Route(s1).clockFace == t && Route(s2).clockFace == t && Route(s2).voiceControl == t &&
      ShowsResetButton(s2) && !ShowsResetButton(PressReset(s2)) &&
      Route(PressReset(s2)).clockFace == now && Route(PressReset(s2)).voiceControl == now
  {
  }
}

=== FILE: korean_numerals.dfy ===
/** The two Korean numeral systems the clock speaks: Sino-Korean numerals
    (영, 일, 이, … 오십구) for minutes and seconds, and the native-Korean
    counting words (한, 두, 세, … 스물네) that name the hour. Each has a
    reader that recovers the number from the word, so that the spoken
    time is unambiguous. */
module KoreanNumerals {
  import opened Decimal
  import Text
  import opened Wrappers

  /** The ones and tens tables of `convertNumberToKorean`. */
  const Ones: seq<string> := ["", "일", "이", "삼", "사", "오", "육", "칠", "팔", "구"]
  const Tens: seq<string> := ["", "십", "이십", "삼십", "사십", "오십"]

  /** `convertNumberToKorean`: 0 is 영, 1 to 59 are spelled in
      Sino-Korean syllables, anything larger falls back to its decimal
      numeral. */
  function SinoKorean(n: nat): (r: string)
    ensures r != [] && ' ' !in r
    ensures n < 60 ==> !IsDigit(r[0])
    ensures n >= 60 ==> r == DecimalString(n)
  {
    OnesWordShape(n % 10);
    TensWordShape(n / 10);
    if n == 0 then "영"
    else if n < 10 then Ones[n]
    else if n < 60 then Tens[n / 10] + (if n % 10 > 0 then Ones[n % 10] else "")
    else DecimalString(n)
  }

  /** The digit 1..9 named by a Sino-Korean syllable. */
  function SinoDigit(c: char): Option<nat> {
    match c
    case '일' => Some(1)
    case '이' => Some(2)
    case '삼' => Some(3)
    case '사' => Some(4)
    case '오' => Some(5)
    case '육' => Some(6)
    case '칠' => Some(7)
    case '팔' => Some(8)
    case '구' => Some(9)
    case _ => None
  }

  /** Every entry of the ones table is one syllable naming its own index. */
  lemma OnesWordShape(d: nat)
    ensures d < 10 ==> (d == 0 <==> Ones[d] == []) && ' ' !in Ones[d]
    ensures 1 <= d < 10 ==> |Ones[d]| == 1 && SinoDigit(Ones[d][0]) == Some(d) && Ones[d][0] != '십'
  {
  }

  /** Ten is 십; the other tens are their digit's syllable followed by 십. */
  lemma TensWordShape(t: nat)
    ensures 1 <= t < 6 ==> Tens[t] == (if t == 1 then "" else Ones[t]) + "십"
    ensures t < 6 ==> ' ' !in Tens[t]
  {
  }

  /** Reads a word written by `SinoKorean` back to its number. */
  function ReadSino(w: string): Option<nat> {
    if w == "영" then Some(0)
    else if '십' in w then ReadSinoTens(w)
    else if |w| == 1 && SinoDigit(w[0]).Some? then SinoDigit(w[0])
    else if w != [] && AllDigits(w) then Some(ParseDecimal(w))
    else None
  }

  /** Reads a spoken Sino-Korean word only: a word that starts with a
      digit is a decimal numeral, not a spoken number, and is refused. */
  function ReadSinoWord(w: string): Option<nat> {
    if w != [] && IsDigit(w[0]) then None else ReadSino(w)
  }

  /** Reads a word of the form [digit]십[digit]. */
  function ReadSinoTens(w: string): Option<nat>
    requires '십' in w
  {
    var i := Text.IndexOf(w, '십');
    var tens := if i == 0 then Some(1)
                else if i == 1 && SinoDigit(w[0]).Some? && SinoDigit(w[0]).value >= 2 then SinoDigit(w[0])
                else None;
    var rest := w[i + 1..];
    var ones := if rest == [] then Some(0)
                else if |rest| == 1 && SinoDigit(rest[0]).Some? then SinoDigit(rest[0])
                else None;
    if tens.Some? && ones.Some? then Some(tens.value * 10 + ones.value) else None
  }

  /** Reading a Sino-Korean numeral gives back the number it spells, for
      every number (the decimal fallback included); so no two numbers are
      spelled alike. */
  lemma SinoRoundTrip(n: nat)
    ensures ReadSino(SinoKorean(n)) == Some(n)
  {
    var w := SinoKorean(n);
    if n >= 60 {
      ParseDecimalString(n);
      assert w[0] != '십';
      assert SinoDigit(w[0]) == None;
      assert '십' !in w by {
        forall k | 0 <= k < |w| ensures w[k] != '십' {
          assert IsDigit(w[k]);
        }
      }
    } else if 10 <= n {
      var t, o := n / 10, n % 10;
      OnesWordShape(t);
      OnesWordShape(o);
      TensWordShape(t);
      var i := if t == 1 then 0 else 1;
      assert w[i] == '십' && '십' !in w[..i];
      Text.IndexOfFirst(w, '십', i);
      assert w[i + 1..] == if o > 0 then Ones[o] else "";
    } else if n > 0 {
      OnesWordShape(n);
    }
  }

  /** Below 60 the numeral is a spoken word that reads back as its number. */
  lemma SinoWordRoundTrip(n: nat)
    requires n < 60
    ensures ReadSinoWord(SinoKorean(n)) == Some(n)
  {
    SinoRoundTrip(n);
  }

  lemma SinoKoreanInjective(a: nat, b: nat)
    requires SinoKorean(a) == SinoKorean(b)
    ensures a == b
  {
    SinoRoundTrip(a);
    SinoRoundTrip(b);
  }

  /** The table of `convertHourToKoreanOrdinal`. */
  const HourOrdinals: map<int, string> := map[
    1 := "한", 2 := "두", 3 := "세", 4 := "네", 5 := "다섯", 6 := "여섯",
    7 := "일곱", 8 := "여덟", 9 := "아홉", 10 := "열", 11 := "열한", 12 := "열두",
    13 := "열세", 14 := "열네", 15 := "열다섯", 16 := "열여섯", 17 := "열일곱", 18 := "열여덟",
    19 := "열아홉", 20 := "스무", 21 := "스물한", 22 := "스물두", 23 := "스물세", 24 := "스물네"]

  /** `convertHourToKoreanOrdinal`: the native-Korean word for 1..24 from the
      table; every other value (0 included) falls back to its decimal
      numeral. */
  function HourOrdinal(n: nat): (r: string)
    ensures (1 <= n <= 24) <==> n in HourOrdinals
    ensures 1 <= n <= 24 ==> r == HourOrdinals[n]
    ensures !(1 <= n <= 24) ==> r == DecimalString(n)
  {
    if n in HourOrdinals then HourOrdinals[n] else DecimalString(n)
  }

  /** The native-Korean units 1..9 used before a counter word. */
  const NativeUnits: seq<string> := ["", "한", "두", "세", "네", "다섯", "여섯", "일곱", "여덟", "아홉"]

  /** The native-Korean counting word for 1..24 built by the language's
      rule: a unit, 열 (ten) and a unit, 스무 for twenty alone, or 스물
      (twenty) and a unit. */
  function NativeHourWord(n: nat): string
    requires 1 <= n <= 24
  {
    if n < 10 then NativeUnits[n]
    else if n == 10 then "열"
    else if n < 20 then "열" + NativeUnits[n - 10]
    else if n == 20 then "스무"
    else "스물" + NativeUnits[n - 20]
  }

  /** The hour table is exactly the native counting word for every hour
      from 1 to 24. */
  lemma HourOrdinalIsNative(n: nat)
    requires 1 <= n <= 24
    ensures HourOrdinal(n) == NativeHourWord(n)
  {
    if n < 10 {
      assert n in {1, 2, 3, 4, 5, 6, 7, 8, 9};
    } else if 10 < n < 20 {
      assert n in {11, 12, 13, 14, 15, 16, 17, 18, 19};
    } else if 20 < n {
      assert n in {21, 22, 23, 24};
    }
  }

  /** The value 1..9 of a native-Korean unit word. */
  function NativeUnitValue(w: string): Option<nat> {
    if w == "한" then Some(1)
    else if w == "두" then Some(2)
    else if w == "세" then Some(3)
    else if w == "네" then Some(4)
    else if w == "다섯" then Some(5)
    else if w == "여섯" then Some(6)
    else if w == "일곱" then Some(7)
    else if w == "여덟" then Some(8)
    else if w == "아홉" then Some(9)
    else None
  }

  lemma NativeUnitRoundTrip(u: nat)
    requires 1 <= u < 10
    ensures NativeUnitValue(NativeUnits[u]) == Some(u)
    ensures NativeUnits[u] != [] && NativeUnits[u][0] != '열' && NativeUnits[u][0] != '스'
    ensures ' ' !in NativeUnits[u]
  {
    assert u in {1, 2, 3, 4, 5, 6, 7, 8, 9};
  }

  /** Reads a native-Korean counting word for 1..24. */
  function ReadNativeHour(w: string): Option<nat> {
    if w == "열" then Some(10)
    else if w == "스무" then Some(20)
    else if NativeUnitValue(w).Some? then NativeUnitValue(w)
    else if 2 <= |w| && w[0] == '열' && NativeUnitValue(w[1..]).Some? then
      Some(10 + NativeUnitValue(w[1..]).value)
    else if 3 <= |w| && w[..2] == "스물" && NativeUnitValue(w[2..]).Some? then
      Some(20 + NativeUnitValue(w[2..]).value)
    else None
  }

  /** Reads an hour word as `convertHourToKoreanOrdinal` writes it: a
      native counting word, or else a decimal numeral. */
  function ReadHourWord(w: string): Option<nat> {
    if ReadNativeHour(w).Some? then ReadNativeHour(w)
    else if w != [] && AllDigits(w) then Some(ParseDecimal(w))
    else None
  }

  /** A word that starts with a digit is not a native counting word. */
  lemma DigitsAreNotNative(w: string)
    requires w != [] && IsDigit(w[0])
    ensures ReadNativeHour(w) == None
  {
    assert NativeUnitValue(w) == None;
  }

  /** Reading an hour word gives back the number it names, for every
      number; so no two hours are named alike. */
  lemma HourOrdinalRoundTrip(n: nat)
    ensures ReadHourWord(HourOrdinal(n)) == Some(n)
    ensures HourOrdinal(n) != [] && ' ' !in HourOrdinal(n)
  {
    var w := HourOrdinal(n);
    if 1 <= n <= 24 {
      HourOrdinalIsNative(n);
      if n < 10 {
        NativeUnitRoundTrip(n);
      } else if 10 < n < 20 {
        NativeUnitRoundTrip(n - 10);
        assert w == "열" + NativeUnits[n - 10];
        assert w[1..] == NativeUnits[n - 10];
      } else if 20 < n {
        NativeUnitRoundTrip(n - 20);
        assert w == "스물" + NativeUnits[n - 20];
        assert w[..2] == "스물" && w[2..] == NativeUnits[n - 20];
      }
    } else {
      DigitsAreNotNative(w);
      ParseDecimalString(n);
    }
  }

  lemma HourOrdinalInjective(a: nat, b: nat)
    requires HourOrdinal(a) == HourOrdinal(b)
    ensures a == b
  {
    HourOrdinalRoundTrip(a);
    HourOrdinalRoundTrip(b);
  }

  /** Worked examples of both numeral systems. */
  lemma NumeralExamples()
    ensures SinoKorean(0) == "영" && SinoKorean(5) == "오" && SinoKorean(10) == "십"
    ensures SinoKorean(23) == "이십삼" && SinoKorean(60) == "60"
    ensures HourOrdinal(1) == "한" && HourOrdinal(13) == "열세" && HourOrdinal(20) == "스무"
    ensures HourOrdinal(24) == "스물네" && HourOrdinal(0) == "0" && HourOrdinal(25) == "25"
  {
    assert DecimalString(6) == "6";
    assert DecimalString(2) == "2";
  }
}

=== FILE: local_time.dfy ===
/** A JavaScript `Date` as an integer count of milliseconds, read in local
    time without time zone offset or daylight saving: the day is the
    floor of the count by the length of a day, and the clock fields are
    the Euclidean remainders. The setters follow ECMAScript's
    `MakeDate(Day(t), MakeTime(h, m, s, ms))`, which amounts to shifting
    the instant by the change of the field times the field's unit; an
    out-of-range or negative argument therefore carries into the next
    larger field, as JavaScript's normalisation does. */
module LocalTime {

  const MsPerSecond: int := 1000
  const MsPerMinute: int := 60 * MsPerSecond
  const MsPerHour: int := 60 * MsPerMinute
  const MsPerDay: int := 24 * MsPerHour

  /** `Date.prototype.getHours()`. */
  function Hours(t: int): (h: int)
    ensures 0 <= h < 24
  {
    (t % MsPerDay) / MsPerHour
  }

  /** `Date.prototype.getMinutes()`. */
  function Minutes(t: int): (m: int)
    ensures 0 <= m < 60
  {
    (t % MsPerHour) / MsPerMinute
  }

  /** `Date.prototype.getSeconds()`. */
  function Seconds(t: int): (s: int)
    ensures 0 <= s < 60
  {
    (t % MsPerMinute) / MsPerSecond
  }

  /** `Date.prototype.getMilliseconds()`. */
  function Millis(t: int): (ms: int)
    ensures 0 <= ms < 1000
  {
    t % MsPerSecond
  }

  /** The day number of the instant. */
  function Day(t: int): int {
    t / MsPerDay
  }

  /** The instant with the given day and local clock fields (ECMAScript's
      MakeDate of MakeDay and MakeTime, out-of-range fields included). */
  function MakeLocal(day: int, h: int, m: int, s: int, ms: int): int {
    day * MsPerDay + h * MsPerHour + m * MsPerMinute + s * MsPerSecond + ms
  }

  lemma DivMod(x: int, d: int, q: int, r: int)
    requires 0 < d && 0 <= r < d && x == q * d + r
    ensures x / d == q && x % d == r
  {
    var q0, r0 := x / d, x % d;
    assert (q - q0) * d == r0 - r;
    if q0 < q {
      MulAtLeast(q - q0, d);
      assert false;
    } else if q < q0 {
      MulAtLeast(q0 - q, d);
      assert false;
    }
  }

  lemma {:induction false} MulAtLeast(k: int, d: int)
    requires 1 <= k && 0 <= d
    ensures k * d >= d
    decreases k
  {
    if k > 1 {
      MulAtLeast(k - 1, d);
      assert k * d == (k - 1) * d + d;
    }
  }

  /** Reading the fields of an instant built from in-range fields gives
      those fields back. */
  lemma FieldsOfMakeLocal(day: int, h: int, m: int, s: int, ms: int)
    requires 0 <= h < 24 && 0 <= m < 60 && 0 <= s < 60 && 0 <= ms < 1000
    ensures var t := MakeLocal(day, h, m, s, ms);
      Day(t) == day && Hours(t) == h && Minutes(t) == m && Seconds(t) == s && Millis(t) == ms &&
      t / MsPerHour == day * 24 + h && t / MsPerMinute == (day * 24 + h) * 60 + m
  {
    var t := MakeLocal(day, h, m, s, ms);
    var inDay := h * MsPerHour + m * MsPerMinute + s * MsPerSecond + ms;
    DivMod(t, MsPerDay, day, inDay);
    DivMod(inDay, MsPerHour, h, m * MsPerMinute + s * MsPerSecond + ms);
    DivMod(t, MsPerHour, day * 24 + h, m * MsPerMinute + s * MsPerSecond + ms);
    DivMod(m * MsPerMinute + s * MsPerSecond + ms, MsPerMinute, m, s * MsPerSecond + ms);
    DivMod(t, MsPerMinute, (day * 24 + h) * 60 + m, s * MsPerSecond + ms);
    DivMod(s * MsPerSecond + ms, MsPerSecond, s, ms);
    DivMod(t, MsPerSecond, ((day * 24 + h) * 60 + m) * 60 + s, ms);
  }

  /** Every instant is its day plus its clock fields. */
  lemma {:induction false} Decompose(t: int)
    ensures t == MakeLocal(Day(t), Hours(t), Minutes(t), Seconds(t), Millis(t))
  {
    var inDay := t % MsPerDay;
    var inHour := inDay % MsPerHour;
    DivMod(t % MsPerHour, MsPerHour, 0, inHour) by {
      DivMod(t, MsPerHour, Day(t) * 24 + inDay / MsPerHour, inHour);
    }
    var inMinute := inHour % MsPerMinute;
    DivMod(t, MsPerMinute, (Day(t) * 24 + inDay / MsPerHour) * 60 + inHour / MsPerMinute, inMinute);
    DivMod(t, MsPerSecond, ((Day(t) * 24 + inDay / MsPerHour) * 60 + inHour / MsPerMinute) * 60 + inMinute / MsPerSecond, inMinute % MsPerSecond);
  }

  /** `setHours(h)`: the instant moved by the change of the hour. It is
      ECMAScript's rebuilding of the instant from its day and its fields
      with the hour replaced. */
  function SetHours(t: int, h: int): (r: int)
    ensures r == MakeLocal(Day(t), h, Minutes(t), Seconds(t), Millis(t))
  {
    Decompose(t);
    t + (h - Hours(t)) * MsPerHour
  }

  /** `setHours(h, m, s, ms)`: the instant rebuilt from its day and the
      four given fields. */
  function SetHoursFull(t: int, h: int, m: int, s: int, ms: int): (r: int)
    ensures r == MakeLocal(Day(t), h, m, s, ms)
  {
    Decompose(t);
    t + (h - Hours(t)) * MsPerHour + (m - Minutes(t)) * MsPerMinute
      + (s - Seconds(t)) * MsPerSecond + (ms - Millis(t))
  }

  /** `setMinutes(m)`: the instant rebuilt with the minute replaced. */
  function SetMinutes(t: int, m: int): (r: int)
    ensures r == MakeLocal(Day(t), Hours(t), m, Seconds(t), Millis(t))
  {
    Decompose(t);
    t + (m - Minutes(t)) * MsPerMinute
  }

  /** `setSeconds(s)`: the instant rebuilt with the second replaced. */
  function SetSeconds(t: int, s: int): (r: int)
    ensures r == MakeLocal(Day(t), Hours(t), Minutes(t), s, Millis(t))
  {
    Decompose(t);
    t + (s - Seconds(t)) * MsPerSecond
  }

  /** `setHours(h, m, s, ms)` with in-range arguments sets exactly those
      fields and stays on the same day. */
  lemma SetHoursFullFields(t: int, h: int, m: int, s: int, ms: int)
    requires 0 <= h < 24 && 0 <= m < 60 && 0 <= s < 60 && 0 <= ms < 1000
    ensures var r := SetHoursFull(t, h, m, s, ms);
      Day(r) == Day(t) && Hours(r) == h && Minutes(r) == m && Seconds(r) == s && Millis(r) == ms
  {
    FieldsOfMakeLocal(Day(t), h, m, s, ms);
  }

  /** `setHours(h)` with an hour of the day replaces the hour and nothing else. */
  lemma SetHoursInRange(t: int, h: int)
    requires 0 <= h < 24
    ensures var r := SetHours(t, h);
      Day(r) == Day(t) && Hours(r) == h && Minutes(r) == Minutes(t) &&
      Seconds(r) == Seconds(t) && Millis(r) == Millis(t)
  {
    FieldsOfMakeLocal(Day(t), h, Minutes(t), Seconds(t), Millis(t));
  }

  /** `setHours(h)` with a negative hour lands on the previous day, at
      hour `h + 24`. */
  lemma SetHoursNegative(t: int, h: int)
    requires -24 <= h < 0
    ensures var r := SetHours(t, h);
      Day(r) == Day(t) - 1 && Hours(r) == h + 24 && Minutes(r) == Minutes(t) &&
      Seconds(r) == Seconds(t) && Millis(r) == Millis(t)
  {
    assert SetHours(t, h) == MakeLocal(Day(t) - 1, h + 24, Minutes(t), Seconds(t), Millis(t));
    FieldsOfMakeLocal(Day(t) - 1, h + 24, Minutes(t), Seconds(t), Millis(t));
  }

  /** `setMinutes(m)` with a minute of the hour replaces the minute and
      nothing else. */
  lemma SetMinutesInRange(t: int, m: int)
    requires 0 <= m < 60
    ensures var r := SetMinutes(t, m);
      Day(r) == Day(t) && Hours(r) == Hours(t) && Minutes(r) == m &&
      Seconds(r) == Seconds(t) && Millis(r) == Millis(t)
  {
    FieldsOfMakeLocal(Day(t), Hours(t), m, Seconds(t), Millis(t));
  }

  /** `setMinutes(m)` with a negative minute shows minute `m + 60` of the
      previous hour: the count of whole hours drops by one. */
  lemma SetMinutesNegative(t: int, m: int)
    requires -60 <= m < 0
    ensures var r := SetMinutes(t, m);
      Minutes(r) == m + 60 && Seconds(r) == Seconds(t) && Millis(r) == Millis(t) &&
      r / MsPerHour == t / MsPerHour - 1
  {
    var d, h, mi, s, ms := Day(t), Hours(t), Minutes(t), Seconds(t), Millis(t);
    var r := SetMinutes(t, m);
    assert r == MakeLocal(d, h, m, s, ms);
    Decompose(t);
    FieldsOfMakeLocal(d, h, mi, s, ms);
    if h > 0 {
      assert r == MakeLocal(d, h - 1, m + 60, s, ms);
      FieldsOfMakeLocal(d, h - 1, m + 60, s, ms);
    } else {
      assert r == MakeLocal(d - 1, 23, m + 60, s, ms);
      FieldsOfMakeLocal(d - 1, 23, m + 60, s, ms);
    }
  }

  /** `setSeconds(s)` with a second of the minute replaces the second and
      nothing else. */
  lemma SetSecondsInRange(t: int, s: int)
    requires 0 <= s < 60
    ensures var r := SetSeconds(t, s);
      Day(r) == Day(t) && Hours(r) == Hours(t) && Minutes(r) == Minutes(t) &&
      Seconds(r) == s && Millis(r) == Millis(t)
  {
    FieldsOfMakeLocal(Day(t), Hours(t), Minutes(t), s, Millis(t));
  }

  /** `setSeconds(s)` with a negative second shows second `s + 60` of the
      previous minute: the count of whole minutes drops by one. */
  lemma SetSecondsNegative(t: int, s: int)
    requires -60 <= s < 0
    ensures var r := SetSeconds(t, s);
      Seconds(r) == s + 60 && Millis(r) == Millis(t) &&
      r / MsPerMinute == t / MsPerMinute - 1
  {
    FieldsOfMakeLocal(Day(t), Hours(t), Minutes(t), Seconds(t), Millis(t));
    Decompose(t);
    var r := SetSeconds(t, s);
    if Minutes(t) > 0 {
      assert r == MakeLocal(Day(t), Hours(t), Minutes(t) - 1, s + 60, Millis(t));
      FieldsOfMakeLocal(Day(t), Hours(t), Minutes(t) - 1, s + 60, Millis(t));
    } else if Hours(t) > 0 {
      assert r == MakeLocal(Day(t), Hours(t) - 1, 59, s + 60, Millis(t));
      FieldsOfMakeLocal(Day(t), Hours(t) - 1, 59, s + 60, Millis(t));
    } else {
      assert r == MakeLocal(Day(t) - 1, 23, 59, s + 60, Millis(t));
      FieldsOfMakeLocal(Day(t) - 1, 23, 59, s + 60, Millis(t));
    }
  }

  /** The 12-hour clock: afternoon from hour 12 on. */
  predicate IsPM(h: int) {
    h >= 12
  }

  /** `hours % 12 || 12`: the hour shown on a 12-hour clock. */
  function Hour12(h: int): (d: int)
    requires 0 <= h < 24
    ensures 1 <= d <= 12
    ensures d % 12 == h % 12
  {
    if h % 12 == 0 then 12 else h % 12
  }

  /** The 24-hour value that a 12-hour reading and its half of the day denote. */
  function From12(pm: bool, d: int): int {
    (if d == 12 then 0 else d) + (if pm then 12 else 0)
  }

  /** The 12-hour reading together with its half of the day is faithful:
      it determines the 24-hour value. */
  lemma Hour12RoundTrip(h: int)
    requires 0 <= h < 24
    ensures From12(IsPM(h), Hour12(h)) == h
  {
  }
}

=== FILE: text.dfy ===
/** The JavaScript string operations the clock page relies on:
    `split` on a one-character separator, joining with a separator,
    `trim` and `padStart`. */
module Text {

  /** Index of the first occurrence of `c` in `s`. */
  function IndexOf(s: string, c: char): (i: nat)
    requires c in s
    ensures i < |s| && s[i] == c && c !in s[..i]
  {
    if s[0] == c then 0 else
      assert s == [s[0]] + s[1..];
      var j := IndexOf(s[1..], c);
      assert s[..j + 1] == [s[0]] + s[1..][..j];
      j + 1
  }

  lemma IndexOfFirst(s: string, c: char, i: nat)
    requires i < |s| && s[i] == c && c !in s[..i]
    ensures c in s && IndexOf(s, c) == i
  {
  }

  /** `s.split(sep)`: the pieces between occurrences of `sep`, in order;
      a string without `sep` splits into itself. */
  function Split(s: string, sep: char): (parts: seq<string>)
    ensures 1 <= |parts|
    ensures forall k :: 0 <= k < |parts| ==> sep !in parts[k]
    decreases |s|
  {
    if sep in s then
      var i := IndexOf(s, sep);
      [s[..i]] + Split(s[i + 1..], sep)
    else
      [s]
  }

  /** `parts.join(sep)`. */
  function Join(parts: seq<string>, sep: char): string
  {
    if |parts| == 0 then ""
    else if |parts| == 1 then parts[0]
    else parts[0] + [sep] + Join(parts[1..], sep)
  }

  lemma JoinCons(p: string, rest: seq<string>, sep: char)
    requires 1 <= |rest|
    ensures Join([p] + rest, sep) == p + [sep] + Join(rest, sep)
  {
    assert ([p] + rest)[1..] == rest;
  }

  lemma JoinTwo(a: string, b: string, sep: char)
    ensures Join([a, b], sep) == a + [sep] + b
  {
    JoinCons(a, [b], sep);
  }

  lemma JoinThree(a: string, b: string, c: string, sep: char)
    ensures Join([a, b, c], sep) == a + [sep] + b + [sep] + c
  {
    JoinCons(a, [b, c], sep);
    assert [a] + [b, c] == [a, b, c];
    JoinTwo(b, c, sep);
  }

  lemma JoinSix(a: string, b: string, c: string, d: string, e: string, f: string, sep: char)
    ensures Join([a, b, c, d, e, f], sep)
            == a + [sep] + b + [sep] + c + [sep] + d + [sep] + e + [sep] + f
  {
    JoinThree(d, e, f, sep);
    JoinCons(c, [d, e, f], sep);
    assert [c] + [d, e, f] == [c, d, e, f];
    JoinCons(b, [c, d, e, f], sep);
    assert [b] + [c, d, e, f] == [b, c, d, e, f];
    JoinCons(a, [b, c, d, e, f], sep);
    assert [a] + [b, c, d, e, f] == [a, b, c, d, e, f];
  }

  /** Splitting recovers the pieces of a join whose pieces are free of the
      separator. */
  lemma {:induction false} SplitJoin(parts: seq<string>, sep: char)
    requires 1 <= |parts|
    requires forall k :: 0 <= k < |parts| ==> sep !in parts[k]
    ensures Split(Join(parts, sep), sep) == parts
    decreases |parts|
  {
    if |parts| > 1 {
      var p := parts[0];
      var rest := Join(parts[1..], sep);
      var s := p + [sep] + rest;
      assert s == Join(parts, sep);
      assert s[..|p|] == p;
      IndexOfFirst(s, sep, |p|);
      assert s[|p| + 1..] == rest;
      assert Split(s, sep) == [p] + Split(rest, sep);
      SplitJoin(parts[1..], sep);
      assert parts == [p] + parts[1..];
    }
  }

  /** Joining the pieces of a split with the separator gives back the
      text: `split` loses nothing but the separators. */
  lemma {:induction false} JoinSplit(s: string, sep: char)
    ensures Join(Split(s, sep), sep) == s
    decreases |s|
  {
    if sep in s {
      var i := IndexOf(s, sep);
      var rest := Split(s[i + 1..], sep);
      JoinSplit(s[i + 1..], sep);
      JoinCons(s[..i], rest, sep);
      assert s == s[..i] + [sep] + s[i + 1..];
    }
  }

  /** The characters `trim` removes that can occur in this page's text. */
  predicate IsSpace(c: char) {
    c == ' ' || c == '\t' || c == '\n' || c == '\r'
  }

  function TrimStart(s: string): (r: string)
    ensures |r| <= |s| && r == s[|s| - |r|..]
    ensures r != [] ==> !IsSpace(r[0])
    decreases |s|
  {
    if |s| > 0 && IsSpace(s[0]) then TrimStart(s[1..]) else s
  }

  function TrimEnd(s: string): (r: string)
    ensures |r| <= |s| && r == s[..|r|]
    ensures r != [] ==> !IsSpace(r[|r| - 1])
    decreases |s|
  {
    if |s| > 0 && IsSpace(s[|s| - 1]) then TrimEnd(s[..|s| - 1]) else s
  }

  /** `s.trim()`. */
  function Trim(s: string): string {
    TrimEnd(TrimStart(s))
  }

  /** Trimming a string that has one trailing blank and no other
      surrounding white space gives back the string without the blank. */
  lemma TrimTrailingBlank(s: string)
    requires s != [] && !IsSpace(s[0]) && !IsSpace(s[|s| - 1])
    ensures Trim(s + " ") == s
  {
    var t := s + " ";
    assert TrimStart(t) == t;
    assert t[..|t| - 1] == s;
    assert TrimEnd(t) == TrimEnd(s);
  }

  function Repeat(c: char, n: nat): (r: string)
    ensures |r| == n && forall k :: 0 <= k < n ==> r[k] == c
  {
    if n == 0 then "" else [c] + Repeat(c, n - 1)
  }

  /** `s.padStart(width, fill)` with a one-character fill. */
  function PadStart(s: string, width: nat, fill: char): (r: string)
    ensures |r| == if |s| >= width then |s| else width
    ensures r[|r| - |s|..] == s
    ensures forall k :: 0 <= k < |r| - |s| ==> r[k] == fill
  {
    if |s| >= width then s else Repeat(fill, width - |s|) + s
  }
}

=== FILE: time_utils.dfy ===
/** The time utilities of the clock page: the duration between two
    instants with its Korean description, and the spoken Korean form of a
    clock time (native-Korean hour word, Sino-Korean minutes and seconds). */
module TimeUtils {
  import opened Decimal
  import opened Text
  import opened LocalTime
  import opened KoreanNumerals
  import opened Wrappers

  /** An argument of `calculateTimeDifference`: a Date, or a bare "HH:MM"
      string that is read against the current date. */
  datatype TimeArg = Instant(ms: int) | ClockText(text: string)

  /** A bare clock string whose first two ':'-separated pieces are digit
      strings, so that `Number` reads both as integers (an empty piece
      reads as 0). */
  predicate ClockTextWellFormed(s: string) {
    var parts := Split(s, ':');
    |parts| >= 2 && AllDigits(parts[0]) && AllDigits(parts[1])
  }

  predicate WellFormedArg(a: TimeArg) {
    a.ClockText? ==> ClockTextWellFormed(a.text)
  }

  function TextHour(s: string): nat
    requires ClockTextWellFormed(s)
  {
    ParseDecimal(Split(s, ':')[0])
  }

  function TextMinute(s: string): nat
    requires ClockTextWellFormed(s)
  {
    ParseDecimal(Split(s, ':')[1])
  }

  /** The instant an argument stands for; `now` is the value of
      `new Date()` when the call runs. A bare string becomes today at
      HH:MM:00.000. */
  function ResolveArg(a: TimeArg, now: int): (t: int)
    requires WellFormedArg(a)
    ensures a.Instant? ==> t == a.ms
    ensures a.ClockText? ==> t == MakeLocal(Day(now), TextHour(a.text), TextMinute(a.text), 0, 0)
  {
    match a
    case Instant(ms) => ms
    case ClockText(s) => SetHoursFull(now, TextHour(s), TextMinute(s), 0, 0)
  }

  /** A bare "HH:MM" within a day denotes today's HH:MM with seconds and
      milliseconds zeroed. */
  lemma ClockTextResolves(s: string, now: int)
    requires ClockTextWellFormed(s) && TextHour(s) < 24 && TextMinute(s) < 60
    ensures var t := ResolveArg(ClockText(s), now);
      Day(t) == Day(now) && Hours(t) == TextHour(s) && Minutes(t) == TextMinute(s) &&
      Seconds(t) == 0 && Millis(t) == 0
  {
    SetHoursFullFields(now, TextHour(s), TextMinute(s), 0, 0);
  }

  /** A string as an `<input type="time">` produces it, "07:30", is read
      as 7 hours 30 minutes. */
  lemma ClockTextExample()
    ensures ClockTextWellFormed("07:30") && TextHour("07:30") == 7 && TextMinute("07:30") == 30
  {
    var s := "07:30";
    IndexOfFirst(s, ':', 2);
    assert s[..2] == "07" && s[3..] == "30";
    assert ':' !in "30";
    assert Split("30", ':') == ["30"];
    assert Split(s, ':') == ["07", "30"];
    assert ParseDecimal("07") == 7 by {
      assert "07"[..1] == "0" && "0"[..0] == [];
    }
    assert ParseDecimal("30") == 30 by {
      assert "30"[..1] == "3" && "3"[..0] == [];
    }
  }

  /** The result of `calculateTimeDifference`. */
  datatype TimeDifference = TimeDifference(hours: nat, minutes: nat, seconds: nat, description: string)

  /** "남음" (remaining) when the target was a bare string, "지남" (elapsed)
      otherwise: the direction comes from the argument's kind, not from
      the sign of the difference. */
  function Suffix(to: TimeArg): string {
    if to.ClockText? then "남음" else "지남"
  }

  /** The description as it stands before `trim`: each shown component
      followed by a blank. */
  function RawDescription(h: nat, m: nat, s: nat): (r: string)
    ensures r == Join(DescriptionParts(h, m, s), ' ') + " "
  {
    JoinShown(DecimalString(h) + "시간", DecimalString(m) + "분", DecimalString(s) + "초",
              h > 0, m > 0, s > 0 || (h == 0 && m == 0));
    (if h > 0 then DecimalString(h) + "시간 " else "") +
    (if m > 0 then DecimalString(m) + "분 " else "") +
    (if s > 0 || (h == 0 && m == 0) then DecimalString(s) + "초 " else "")
  }

  /** Each shown piece followed by a blank is the shown pieces joined by
      blanks, plus one trailing blank. */
  lemma JoinShown(a: string, b: string, c: string, showA: bool, showB: bool, showC: bool)
    requires showA || showB || showC
    ensures (if showA then a + " " else "") + (if showB then b + " " else "") + (if showC then c + " " else "")
            == Join((if showA then [a] else []) + (if showB then [b] else []) + (if showC then [c] else []), ' ') + " "
  {
    var parts := (if showA then [a] else []) + (if showB then [b] else []) + (if showC then [c] else []);
    if showA && showB && showC {
      assert parts == [a, b, c];
      JoinThree(a, b, c, ' ');
    } else if showA && showB {
      assert parts == [a, b];
      JoinTwo(a, b, ' ');
    } else if showA && showC {
      assert parts == [a, c];
      JoinTwo(a, c, ' ');
    } else if showB && showC {
      assert parts == [b, c];
      JoinTwo(b, c, ' ');
    } else if showA {
      assert parts == [a];
    } else if showB {
      assert parts == [b];
    } else {
      assert parts == [c];
    }
  }

  /** The description: the raw text trimmed, then the suffix. Trimming
      leaves the shown components joined by single blanks, with the suffix
      attached without a blank. */
  function Description(h: nat, m: nat, s: nat, to: TimeArg): (r: string)
    ensures r == Join(DescriptionParts(h, m, s), ' ') + Suffix(to)
  {
    var parts := DescriptionParts(h, m, s);
    JoinEnds(parts);
    TrimTrailingBlank(Join(parts, ' '));
    Trim(RawDescription(h, m, s)) + Suffix(to)
  }

  function Abs(x: int): nat {
    if x < 0 then -x else x
  }

  /** `calculateTimeDifference(from, to)`: the absolute difference in whole
      seconds, split into hours, minutes below 60 and seconds below 60. */
  function CalculateTimeDifference(from: TimeArg, to: TimeArg, now: int): (d: TimeDifference)
    requires WellFormedArg(from) && WellFormedArg(to)
    ensures d.minutes < 60 && d.seconds < 60
    ensures d.hours * 3600 + d.minutes * 60 + d.seconds
            == Abs(ResolveArg(to, now) - ResolveArg(from, now)) / 1000
  {
    var diffMs := ResolveArg(to, now) - ResolveArg(from, now);
    var absMs := if diffMs < 0 then -diffMs else diffMs;
    var diffSeconds := absMs / 1000;
    var hours := diffSeconds / 3600;
    var minutes := (diffSeconds % 3600) / 60;
    var seconds := diffSeconds % 60;
    assert diffSeconds % 3600 == minutes * 60 + seconds by {
      DivMod(diffSeconds, 60, hours * 60 + minutes, (diffSeconds % 3600) % 60);
    }
    TimeDifference(hours, minutes, seconds, Description(hours, minutes, seconds, to))
  }

  /** The components a description names, in order: hours only when
      positive, minutes only when positive, seconds when positive or when
      nothing else is shown. */
  function DescriptionParts(h: nat, m: nat, s: nat): (parts: seq<string>)
    ensures 1 <= |parts|
    ensures forall k :: 0 <= k < |parts| ==> parts[k] != [] && ' ' !in parts[k]
  {
    (if h > 0 then [DecimalString(h) + "시간"] else []) +
    (if m > 0 then [DecimalString(m) + "분"] else []) +
    (if s > 0 || (h == 0 && m == 0) then [DecimalString(s) + "초"] else [])
  }

  /** The description is the shown components separated by single blanks,
      trimmed, with the direction suffix attached without a blank. */
  lemma DescriptionFormat(from: TimeArg, to: TimeArg, now: int)
    requires WellFormedArg(from) && WellFormedArg(to)
    ensures var d := CalculateTimeDifference(from, to, now);
      d.description == Join(DescriptionParts(d.hours, d.minutes, d.seconds), ' ') + Suffix(to)
  {
  }

  /** A join of non-empty pieces starts with the first piece's first
      character and ends with the last piece's last character. */
  lemma {:induction false} JoinEnds(parts: seq<string>)
    requires 1 <= |parts| && forall k :: 0 <= k < |parts| ==> parts[k] != []
    ensures var j := Join(parts, ' ');
      j != [] && j[0] == parts[0][0] && j[|j| - 1] == parts[|parts| - 1][|parts[|parts| - 1]| - 1]
    decreases |parts|
  {
    if |parts| > 1 {
      JoinEnds(parts[1..]);
    }
  }

  /** Each unit is shown exactly under its rule: "N시간" only for positive
      hours, "N분" only for positive minutes, "N초" for positive seconds or
      when hours and minutes are both zero. */
  lemma DescriptionPartsRule(h: nat, m: nat, s: nat)
    ensures (DecimalString(h) + "시간" in DescriptionParts(h, m, s)) <==> h > 0
    ensures (DecimalString(m) + "분" in DescriptionParts(h, m, s)) <==> m > 0
    ensures (DecimalString(s) + "초" in DescriptionParts(h, m, s)) <==> (s > 0 || (h == 0 && m == 0))
  {
    var hs, ms, ss := DecimalString(h) + "시간", DecimalString(m) + "분", DecimalString(s) + "초";
    assert hs[|hs| - 1] == '간' && ms[|ms| - 1] == '분' && ss[|ss| - 1] == '초';
  }

  /** Swapping the arguments gives the same hours, minutes and seconds:
      a negative difference is replaced by its magnitude. */
  lemma SymmetricMagnitude(a: TimeArg, b: TimeArg, now: int)
    requires WellFormedArg(a) && WellFormedArg(b)
    ensures var d1, d2 := CalculateTimeDifference(a, b, now), CalculateTimeDifference(b, a, now);
      d1.hours == d2.hours && d1.minutes == d2.minutes && d1.seconds == d2.seconds
  {
  }

  /** The suffix is "남음" exactly when the target is a bare string,
      whichever instant is earlier; so a target already past still reads as
      remaining time. */
  lemma SuffixByArgumentKind(from: TimeArg, to: TimeArg, now: int)
    requires WellFormedArg(from) && WellFormedArg(to)
    ensures var desc := CalculateTimeDifference(from, to, now).description;
      |desc| >= 2 && (desc[|desc| - 2..] == "남음" <==> to.ClockText?)
  {
    var desc := CalculateTimeDifference(from, to, now).description;
    DescriptionFormat(from, to, now);
    assert desc[|desc| - 2..] == Suffix(to);
  }

  /** Two equal Date instants are zero apart and described as "0초지남". */
  lemma SameInstant(t: int, now: int)
    ensures CalculateTimeDifference(Instant(t), Instant(t), now) == TimeDifference(0, 0, 0, "0초지남")
  {
    var d := CalculateTimeDifference(Instant(t), Instant(t), now);
    ZeroDifference(d.hours, d.minutes, d.seconds);
    ZeroDescription(Instant(t));
  }

  lemma ZeroDifference(h: nat, m: nat, s: nat)
    requires h * 3600 + m * 60 + s == 0
    ensures h == 0 && m == 0 && s == 0
  {
  }

  /** A zero difference between Dates is described as "0초지남". */
  lemma ZeroDescription(to: TimeArg)
    requires to.Instant?
    ensures Description(0, 0, 0, to) == "0초지남"
  {
    assert DecimalString(0) + "초" == "0초";
    assert DescriptionParts(0, 0, 0) == ["0초"];
  }

  /** The spoken-time template shared by both Korean formatters:
      `${period}${hourText} 시 ${minuteText} 분 ${secondText} 초`. */
  function SpokenTime(period: string, hourText: string, minuteText: string, secondText: string): string {
    period + hourText + " 시 " + minuteText + " 분 " + secondText + " 초"
  }

  /** "오전 " before noon and "오후 " from noon on; nothing in 24-hour mode. */
  function PeriodPrefix(h: int, is24Hour: bool): (p: string)
    ensures p == "" || p == "오전 " || p == "오후 "
  {
    if is24Hour then "" else if h >= 12 then "오후 " else "오전 "
  }

  /** `formatTimeToKorean(time, is24Hour)`: native-Korean hour word (the
      12-hour value `hours % 12 || 12` in 12-hour mode, the raw hour in
      24-hour mode), Sino-Korean minutes and seconds. In 12-hour mode the
      phrase starts with "오전 " exactly before noon and with "오후 " exactly
      from noon on; in either mode the prefix is followed by the word of
      the displayed hour. */
  function FormatTimeToKorean(t: int, is24Hour: bool): (r: string)
    ensures !is24Hour ==> |r| > 3 && (r[..3] == "오전 " <==> Hours(t) < 12) && (r[..3] == "오후 " <==> Hours(t) >= 12)
    ensures var w := HourOrdinal(if is24Hour then Hours(t) else Hour12(Hours(t)));
      var p := PeriodPrefix(Hours(t), is24Hour);
      |r| > |p| + |w| && r[..|p| + |w|] == p + w
  {
    var hours := Hours(t);
    var displayHours := if is24Hour then hours else Hour12(hours);
    var p := PeriodPrefix(hours, is24Hour);
    SpokenTimeStarts(p, HourOrdinal(displayHours), SinoKorean(Minutes(t)), SinoKorean(Seconds(t)));
    assert "오전 " != "오후 " by {
      assert "오전 "[1] != "오후 "[1];
    }
    SpokenTime(p, HourOrdinal(displayHours), SinoKorean(Minutes(t)), SinoKorean(Seconds(t)))
  }

  /** The words of a spoken time, as `split(' ')` cuts them. */
  lemma SpokenTimeWords(period: string, h: string, m: string, s: string)
    requires period == "" || period == "오전 " || period == "오후 "
    requires h != [] && m != [] && s != [] && ' ' !in h && ' ' !in m && ' ' !in s
    ensures Split(SpokenTime(period, h, m, s), ' ')
            == (if period == "" then [] else [period[..2]]) + [h, "시", m, "분", s, "초"]
  {
    var core := [h, "시", m, "분", s, "초"];
    var words := (if period == "" then [] else [period[..2]]) + core;
    SpokenTimeJoined(period, h, m, s);
    SplitJoin(words, ' ');
  }

  lemma SpokenTimeJoined(period: string, h: string, m: string, s: string)
    requires period == "" || period == "오전 " || period == "오후 "
    ensures SpokenTime(period, h, m, s)
            == Join((if period == "" then [] else [period[..2]]) + [h, "시", m, "분", s, "초"], ' ')
  {
    var core := [h, "시", m, "분", s, "초"];
    JoinSix(h, "시", m, "분", s, "초", ' ');
    assert SpokenTime(period, h, m, s) == period + Join(core, ' ');
    if period != "" {
      JoinCons(period[..2], core, ' ');
      assert period == period[..2] + " ";
    } else {
      assert [] + core == core;
    }
  }

  /** Reads a spoken time back to (hour, minute, second), the hour word
      read by `readHour` and the minute and second words only as spoken
      Sino-Korean words (a decimal numeral is refused); a 12-hour phrase
      starts with 오전 or 오후. */
  function ReadSpokenTime(r: string, is24Hour: bool, readHour: string -> Option<nat>): Option<(int, int, int)> {
    var words := Split(r, ' ');
    var k := if is24Hour then 0 else 1;
    if |words| != 6 + k || words[k + 1] != "시" || words[k + 3] != "분" || words[k + 5] != "초" then None
    else
      var h, m, s := readHour(words[k]), ReadSinoWord(words[k + 2]), ReadSinoWord(words[k + 4]);
      if h.None? || m.None? || s.None? then None
      else if is24Hour then Some((h.value, m.value, s.value))
      else if words[0] == "오전" || words[0] == "오후" then Some((From12(words[0] == "오후", h.value), m.value, s.value))
      else None
  }

  /** Reading back a spoken time whose words are understood gives the
      hour, minute and second it was built from. */
  lemma ReadSpokenTimeCorrect(h: int, m: nat, s: nat, hourText: string, minuteText: string,
                              secondText: string, is24Hour: bool, readHour: string -> Option<nat>)
    requires 0 <= h < 24
    requires hourText != [] && ' ' !in hourText && readHour(hourText) == Some(if is24Hour then h else Hour12(h))
    requires minuteText != [] && ' ' !in minuteText && ReadSinoWord(minuteText) == Some(m)
    requires secondText != [] && ' ' !in secondText && ReadSinoWord(secondText) == Some(s)
    ensures ReadSpokenTime(SpokenTime(PeriodPrefix(h, is24Hour), hourText, minuteText, secondText),
                           is24Hour, readHour) == Some((h, m, s))
  {
    var period := PeriodPrefix(h, is24Hour);
    Hour12RoundTrip(h);
    SpokenTimeWords(period, hourText, minuteText, secondText);
    var words := Split(SpokenTime(period, hourText, minuteText, secondText), ' ');
    if is24Hour {
      assert words == [hourText, "시", minuteText, "분", secondText, "초"];
    } else {
      assert words == [period[..2], hourText, "시", minuteText, "분", secondText, "초"];
      assert words[0] == (if h >= 12 then "오후" else "오전");
      assert (words[0] == "오후") == IsPM(h);
    }
  }

  /** The spoken time names the clock time exactly: reading it back gives
      the hour, minute and second of the instant, in either mode. */
  lemma FormatTimeToKoreanRoundTrip(t: int, is24Hour: bool)
    ensures ReadSpokenTime(FormatTimeToKorean(t, is24Hour), is24Hour, ReadHourWord)
            == Some((Hours(t), Minutes(t), Seconds(t)))
  {
    var hours := Hours(t);
    var displayHours := if is24Hour then hours else Hour12(hours);
    HourOrdinalRoundTrip(displayHours);
    SinoWordRoundTrip(Minutes(t));
    SinoWordRoundTrip(Seconds(t));
    ReadSpokenTimeCorrect(hours, Minutes(t), Seconds(t), HourOrdinal(displayHours),
                          SinoKorean(Minutes(t)), SinoKorean(Seconds(t)), is24Hour, ReadHourWord);
  }

  /** A spoken time starts with its period prefix and then its hour word. */
  lemma SpokenTimeStarts(period: string, h: string, m: string, s: string)
    ensures var r := SpokenTime(period, h, m, s);
      |r| > |period| + |h| && r[..|period|] == period && r[..|period| + |h|] == period + h
  {
  }

  /** Hour 0 in 24-hour mode has no native word and reads "0 시"; in
      12-hour mode midnight is twelve o'clock, "오전 열두 시 영 분 영 초";
      15:00:00 in 12-hour mode is "오후 세 시 영 분 영 초". */
  lemma FormatTimeToKoreanExamples()
    ensures FormatTimeToKorean(0, true) == "0 시 영 분 영 초"
    ensures FormatTimeToKorean(0, false) == "오전 열두 시 영 분 영 초"
    ensures FormatTimeToKorean(15 * MsPerHour, false) == "오후 세 시 영 분 영 초"
  {
    FieldsOfMakeLocal(0, 0, 0, 0, 0);
    FieldsOfMakeLocal(0, 15, 0, 0, 0);
    assert DecimalString(0) == "0";
  }
}

=== FILE: wrappers.dfy ===
/** The optional value used for absent results: a hand that was not hit,
    an override time that is not set, a word that does not read. */
module Wrappers {
  datatype Option<T> = None | Some(value: T)
}
